=== FILE: README.md ===
# MemoBoard events core, in Dafny

MemoBoard keeps a list of events (holidays, birthdays and others, each with a
date and possibly recurring every year). This project models its event logic
and proves properties of it:

- **Month grouping** (`groupEventsByMonth`, `useGroupedEvents`):
  - It parses every event's date and drops the events whose date does not parse.
  - It decides which events are overdue. An event is overdue when at least
    `overdueDays` days (default 4, counted in milliseconds) separate its date
    from now.
  - An overdue one-off event is dropped.
  - An overdue yearly event is moved to the current year, or to the next year
    when the moved copy is overdue as well.
  - The kept events are bucketed by `YYYY-MM`. Each bucket is sorted by day of
    month (stably), and the buckets are sorted by (year, month).
  - The model follows the three loops of the source:
    - `CalendarizeEvents` and `ClassifyEvent`;
    - `CollectMonthGroups`, which builds a map plus the list of its keys, each listed once;
    - `SortGroupItems`.

    Each method is proved against a specification function (`Retained`,
    `InMonth`, `SortBy`). The result is proved to be the unique month grouping
    of the retained entries (`IsMonthGrouping`, `GroupingIsUnique`).
- **Date helpers** (`isSameCalendarDay`, `parseDateSafe`, `isOverdue`,
  `getYear`, `getMonth`, `getDay`, `formatDateString`). They work over a UTC
  model of the JavaScript `Date`:
  - a Date is a valid proleptic Gregorian civil date plus the milliseconds into
    its day;
  - its time value is computed as ECMA-262 MakeDay/MakeDate compute it;
  - `setFullYear` and `toISOString` are modelled too.
- **Server-side date normalisation** (`normalizeInputDate`):
  - it rejects non-strings and blank strings, trimming as `String.prototype.trim` does;
  - it turns a `YYYY-MM-DD` string into an RFC 3339 section 5.6 `date-time` at
    midnight UTC;
  - it hands anything else to the native parser.
- **The client event store** (`useEvents`): a class holding `events`, `loading`
  and `error`. The fetch, add, update and delete operations each take the
  outcome of their HTTP exchange as a value.
- **Event form defaulting** (`toExternalValues` and the form's initial values
  in `EventsEdit`).
- **`capitalizeFirst`**.

The environment is passed in as parameters:

- the clock (`now`, and the current year);
- the native `Date` string parser;
- `dayjs` parsing;
- the `Intl` month label;
- the locale upper-casing.

## Model

| member | source | states |
|---|---|---|
| DateUtils.IsSameCalendarDay | frontend/src/utils/date.ts:7-13 | true exactly when both dates fall on the same calendar day (same day number), i.e. year, month and day of month agree |
| DateUtils.FormatDateString | frontend/src/utils/date.ts:30-38 | `""` when the input does not parse; otherwise the formatter's rendering of the parsed date |
| DateUtils.ParseDateSafe | frontend/src/utils/date.ts:51-55 | no date exactly when the string is empty or does not parse; otherwise the parsed date |
| DateUtils.IsOverdue | frontend/src/utils/date.ts:63-70 | overdue exactly when `now - time >= overdueDays * 86400000` |
| DateUtils.OverdueMonotone | frontend/src/utils/date.ts:69 | overdue by n days implies overdue by any m <= n at any later instant |
| DateUtils.OverdueAtZero | frontend/src/utils/date.ts:63-70 | with zero days, overdue exactly when the instant is at or before now |
| DateUtils.OverdueIsNotCalendarDayTest | frontend/src/utils/date.ts:63-70 | a date on the previous calendar day can be less than one day overdue: the test counts milliseconds |
| DateUtils.GetYear | frontend/src/utils/date.ts:77-79 | the year whose days contain the instant |
| DateUtils.GetMonth | frontend/src/utils/date.ts:87-89 | a month in 1..12 whose days contain the instant |
| DateUtils.GetDay | frontend/src/utils/date.ts:96-98 | a day in 1..31, the instant's day counted from the first of its month |
| DateUtils.GettersLocateInstant | frontend/src/utils/date.ts:77-98 | year, month and day from the getters form a valid calendar day, and that day is the instant's |
| JsDate.SetFullYear | frontend/src/hooks/useGroupedEvents.ts:82-83 | same month, day and time in the new year; 29 February of a non-leap year rolls over to 1 March |
| JsDate.DayNumberInjective | frontend/src/utils/date.ts:7-13 | two valid dates share a day number exactly when their year, month and day agree |
| JsDate.ToIsoString | backend/utils/date.js:25 | for years 0..9999, `YYYY-MM-DDTHH:mm:ss.sssZ` whose digit fields read back as the date's UTC year, month, day, hours, minutes, seconds and milliseconds; always ends in `Z` |
| JsDate.ToIsoStringInjective | backend/utils/date.js:25 | for years 0..9999, two dates with the same ISO string are the same date |
| StableSort.SortBy | frontend/src/hooks/useGroupedEvents.ts:124-126 | the result is sorted by rank and is a permutation of the input |
| StableSort.SortByIsStable | frontend/src/hooks/useGroupedEvents.ts:124-126 | elements of equal rank keep their input order (stable sort) |
| StableSort.SortByStrict | frontend/src/hooks/useGroupedEvents.ts:32-47 | with pairwise distinct ranks, the sorted result is strictly increasing |
| GroupedEvents.OverdueDaysOf | frontend/src/hooks/useGroupedEvents.ts:65 | the given `overdueDays`, or 4 when the options or the field are absent |
| GroupedEvents.MonthKey | frontend/src/hooks/useGroupedEvents.ts:100 | for months 1..12: the year's text, a dash, and two digits whose value is the month |
| GroupedEvents.MonthKeyInjective | frontend/src/hooks/useGroupedEvents.ts:100 | distinct (year, month) pairs with months 1..12 get distinct `YYYY-MM` keys |
| GroupedEvents.MonthKeyInjectiveOnMonths | frontend/src/hooks/useGroupedEvents.ts:100 | `monthKey` tells all months apart |
| GroupedEvents.TargetYear | frontend/src/hooks/useGroupedEvents.ts:77-88 | no year exactly for an overdue one-off event; the event's own year when not overdue; the current or the next year for an overdue yearly event |
| GroupedEvents.Calendarize | frontend/src/hooks/useGroupedEvents.ts:70-97 | an entry keeps its event, has month 1..12 and day 1..31, and exists only for a parseable date |
| GroupedEvents.Retained | frontend/src/hooks/useGroupedEvents.ts:68-98 | no more entries than events, each with a valid month and day and each the entry of some input event |
| GroupedEvents.RetainedCount | frontend/src/hooks/useGroupedEvents.ts:68-98 | an event's entry is retained exactly as many times as the event is listed |
| GroupedEvents.RetainedComplete | frontend/src/hooks/useGroupedEvents.ts:68-98 | every event that yields an entry has it among the retained entries |
| GroupedEvents.ClassifyEvent | frontend/src/hooks/useGroupedEvents.ts:71-97 | one pass of the first loop computes exactly the event's entry or skips it |
| GroupedEvents.CalendarizeEvents | frontend/src/hooks/useGroupedEvents.ts:68-98 | the first loop collects exactly the retained entries, in input order |
| GroupedEvents.CompareYearMonth | frontend/src/hooks/useGroupedEvents.ts:32-47 | negative exactly when the first group's (year, month) comes first, positive exactly when the second's does, zero exactly for the same month |
| GroupedEvents.CompareYearMonthAgreesWithRank | frontend/src/hooks/useGroupedEvents.ts:31-50 | for months 1..12 the comparator's sign is the order of year*12+month, and zero exactly for the same month |
| GroupedEvents.SortingEventsByYearMonth | frontend/src/hooks/useGroupedEvents.ts:31-50 | for groups whose months are 1..12 (as every group built from `getMonth() + 1` is): a permutation of the groups with no group after one of a later (year, month) |
| GroupedEvents.AccumulateIntoNew | frontend/src/hooks/useGroupedEvents.ts:109-116 | a first entry of a month creates its group and keeps the map's invariant, every key listed once |
| GroupedEvents.AccumulateIntoExisting | frontend/src/hooks/useGroupedEvents.ts:117-119 | appending to an existing group keeps the map's invariant |
| GroupedEvents.MapValuesCover | frontend/src/hooks/useGroupedEvents.ts:122 | the map's values hold exactly each month's entries, cover every entry and have distinct months |
| GroupedEvents.CollectMonthGroups | frontend/src/hooks/useGroupedEvents.ts:100-122 | one well-formed, non-empty group per month present, holding exactly that month's entries in order |
| GroupedEvents.SortGroupItems | frontend/src/hooks/useGroupedEvents.ts:124-126 | each group's items are replaced by their stable sort by day, nothing else changes |
| GroupedEvents.SortedItemsCover | frontend/src/hooks/useGroupedEvents.ts:124-126 | after sorting the items the groups still cover the entries |
| GroupedEvents.SortedGroupsAreGrouping | frontend/src/hooks/useGroupedEvents.ts:128 | sorting covering groups with distinct months by (year, month) yields the month grouping |
| GroupedEvents.GroupEventsByMonth | frontend/src/hooks/useGroupedEvents.ts:61-131 | the result is the month grouping, keyed `YYYY-MM`, of the retained entries |
| GroupedEvents.UseGroupedEvents | frontend/src/hooks/useGroupedEvents.ts:140-149 | `[]` for no events; otherwise the month grouping with `overdueDays` defaulting to 4 |
| GroupingProperties.GroupHoldsItsMonth | frontend/src/hooks/useGroupedEvents.ts:103-119 | an item is in a group exactly when it is an entry of that group's year and month |
| GroupingProperties.EntryInExactlyOneGroup | frontend/src/hooks/useGroupedEvents.ts:101-120 | every retained entry is in one group and in no other |
| GroupingProperties.GroupKeysDistinct | frontend/src/hooks/useGroupedEvents.ts:100-120 | no two groups share a key |
| GroupingProperties.GroupItemsByDay | frontend/src/hooks/useGroupedEvents.ts:124-126 | items ascend by day and same-day items keep their insertion order |
| GroupingProperties.GroupsPartitionEntries | frontend/src/hooks/useGroupedEvents.ts:101-122 | the groups' items together are a permutation of the retained entries, so the counts agree |
| GroupingProperties.GroupingIsUnique | frontend/src/hooks/useGroupedEvents.ts:61-131 | two month groupings of the same entries are equal |
| GroupingProperties.GroupedItemOrigin | frontend/src/hooks/useGroupedEvents.ts:90-97 | every grouped item is the entry of an input event |
| GroupingProperties.EventPlacement | frontend/src/hooks/useGroupedEvents.ts:90-97 | an event's entry is in the group of its month, and the event appears as no other entry |
| GroupingProperties.EventShownAsOftenAsListed | frontend/src/hooks/useGroupedEvents.ts:70-120 | the groups hold an event's entry exactly as many times as the events list it |
| GroupingProperties.DroppedEventInNoGroup | frontend/src/hooks/useGroupedEvents.ts:79-90 | an event without an entry is in no group |
| GroupingProperties.UnparseableEventInNoGroup | frontend/src/hooks/useGroupedEvents.ts:70-75 | an event whose date does not parse is in no group |
| GroupingProperties.OverdueOneOffInNoGroup | frontend/src/hooks/useGroupedEvents.ts:79-90 | an overdue event that is not yearly is in no group |
| GroupingProperties.CalendarizeKeepsDate | frontend/src/hooks/useGroupedEvents.ts:86-96 | a non-overdue event's entry carries its own year, month and day |
| GroupingProperties.CalendarizeMovesYearly | frontend/src/hooks/useGroupedEvents.ts:81-95 | an overdue yearly event's entry is in the current or next year with its original month and day |
| GroupingProperties.NotOverdueEventKeepsItsDate | frontend/src/hooks/useGroupedEvents.ts:86-96 | a non-overdue event is shown only as the entry of its own year, month and day, in that month's group, as many times as it is listed |
| GroupingProperties.OverdueYearlyEventMoves | frontend/src/hooks/useGroupedEvents.ts:81-95 | an overdue yearly event is shown only as the entry of next year if this year's copy is overdue and this year otherwise, on its original month and day, as many times as it is listed |
| GroupingProperties.MovedYearlyDateNotOverdue | frontend/src/hooks/useGroupedEvents.ts:81-85 | with a clock year that contains now and non-negative days, the moved date is never itself overdue |
| GroupingProperties.FutureYearNotOverdue | frontend/src/hooks/useGroupedEvents.ts:82-85 | a date moved into a year that has not begun is not overdue |
| GroupingProperties.YearlyLeapDayKeepsItsDay | frontend/src/hooks/useGroupedEvents.ts:82-95 | a yearly 29 February stays on month 2, day 29, though the re-check in a non-leap year uses 1 March |
| BackendDate.Trim | backend/utils/date.js:7 | the input is the result with only JavaScript whitespace before and after it, and the result neither starts nor ends with whitespace |
| BackendDate.TrimIgnoresSurroundingWhitespace | backend/utils/date.js:7 | trimming whitespace-wrapped text gives the trim of the text |
| BackendDate.TrimIdempotent | backend/utils/date.js:7 | trimming twice is trimming once |
| BackendDate.MatchesDateOnly | backend/utils/date.js:13-15 | true exactly for ten characters with dashes at positions 4 and 7 and ASCII digits everywhere else |
| BackendDate.NormalizeInputDate | backend/utils/date.js:2-26 | null for a non-string and a blank string; trimmed date-only text plus `T00:00:00Z`; otherwise null when the parse fails, else the ISO string |
| BackendDate.NormalizeIgnoresSurroundingWhitespace | backend/utils/date.js:7-25 | leading and trailing whitespace do not change the result |
| BackendDate.DateOnlyPassesThrough | backend/utils/date.js:13-17 | any date-only text, whatever its digits, comes back with `T00:00:00Z` appended |
| BackendDate.DateOnlyResultShape | backend/utils/date.js:13-17 | a date-only result is 20 characters, the trimmed input followed by `T00:00:00Z` |
| BackendDate.NormalizedIsUtc | backend/utils/date.js:13-25 | every string result ends in `Z` |
| BackendDate.DateOnlyIsTrimmed | backend/utils/date.js:7-15 | text of the date-only shape is unchanged by trimming |
| BackendDate.ImpossibleDatePassesShapeTest | backend/utils/date.js:13-17 | `2024-13-45` has the date-only shape, names no day, and is still returned as `2024-13-45T00:00:00Z` |
| BackendDate.NormalizeInputDateChecked | backend/utils/date.js:13-17 | a date-only result names a real calendar day; everywhere else it agrees with the function as written |
| BackendDate.CheckedRejectsImpossibleDate | backend/utils/date.js:13-17 | the checked version returns null for `2024-13-45` |
| EventsStore.CaughtMessage | frontend/src/hooks/useEvents.ts:37 | an `Error`'s message, or the fixed unknown-error text for any other thrown value |
| EventsStore.StatusMessage | frontend/src/hooks/useEvents.ts:29 | the operation's prefix, the status in decimal, a space, then the status text |
| EventsStore.ListOf | frontend/src/hooks/useEvents.ts:33 | the payload's array, or `[]` when it is not an array |
| EventsStore.ErrorAfter | frontend/src/hooks/useEvents.ts:65-84 | no error exactly for an ok reply the operation accepts; otherwise the caught message, the status message, or the bad-reply message |
| EventsStore.ReplaceById | frontend/src/hooks/useEvents.ts:117 | same length; every event with the id is replaced, every other kept in place |
| EventsStore.RemoveById | frontend/src/hooks/useEvents.ts:139 | keeps exactly the events whose id differs |
| EventsStore.RemoveByIdAppend | frontend/src/hooks/useEvents.ts:139 | filtering distributes over concatenation, so kept events stay in order |
| EventsStore.RemoveByIdAbsent | frontend/src/hooks/useEvents.ts:139 | deleting an absent id changes nothing |
| EventsStore.RemoveByIdIdempotent | frontend/src/hooks/useEvents.ts:139 | deleting twice is deleting once |
| EventsStore.AddThenDelete | frontend/src/hooks/useEvents.ts:76 | deleting a just-added event's id is deleting it from the old list |
| EventsStore.ReplaceByIdAbsent | frontend/src/hooks/useEvents.ts:117 | updating an absent id changes nothing |
| EventsStore.ReplaceThenRemove | frontend/src/hooks/useEvents.ts:117 | after an update that keeps the id, deleting it removes what it would have before |
| EventsStore.EventStore.constructor | frontend/src/hooks/useEvents.ts:17-19 | no events, not loading, no error |
| EventsStore.EventStore.FetchEvents | frontend/src/hooks/useEvents.ts:21-44 | loading ends false; an ok reply stores its list (or `[]`), any failure keeps the list and sets the error |
| EventsStore.EventStore.RefreshEvents | frontend/src/hooks/useEvents.ts:150-152 | the same state change as a fetch: loading ends false, the list and the error message as `FetchEvents` leaves them |
| EventsStore.EventStore.AddEvent | frontend/src/hooks/useEvents.ts:46-85 | true exactly for an ok reply with data; then the saved event is prepended, otherwise the list is kept and the error set |
| EventsStore.EventStore.UpdateEvent | frontend/src/hooks/useEvents.ts:87-125 | true exactly for an ok reply with data; then events with the id are replaced, otherwise the list is kept and the error set |
| EventsStore.EventStore.DeleteEvent | frontend/src/hooks/useEvents.ts:127-148 | true exactly for an ok reply; then events with the id are removed, otherwise the list is kept and the error set |
| EventsEdit.FormatDayjs | frontend/src/components/Events/EventsEdit.tsx:53 | `YYYY-MM-DD` with the date's year, month and day fields; `Invalid Date` for an invalid date |
| EventsEdit.ToExternalValues | frontend/src/components/Events/EventsEdit.tsx:48-59 | title, tags and description default to empty, the date to `""` or its `YYYY-MM-DD` text, the type to holiday, yearly to false |
| EventsEdit.FormInitialValues | frontend/src/components/Events/EventsEdit.tsx:64-79 | a new event starts as an untitled yearly holiday with no tags or description; an edited one keeps its title, tags and description, its type or holiday, and is yearly only if given so; a date only from non-empty text, read by `dayjs` |
| EventsEdit.EditSubmitsDefaults | frontend/src/components/Events/EventsEdit.tsx:48-79 | the edit form opened on any values and submitted untouched fills each missing field with its default |
| EventsEdit.NewEventDefaults | frontend/src/components/Events/EventsEdit.tsx:48-79 | the untouched creation form submits an untitled, undated yearly holiday |
| EventsEdit.EditRoundTrip | frontend/src/components/Events/EventsEdit.tsx:48-79 | editing complete values and submitting untouched gives the same values back when the date reads back to its text |
| EventsEdit.UnreadableDateSubmitsInvalidDate | frontend/src/components/Events/EventsEdit.tsx:53 | a date the form cannot read is submitted as `Invalid Date`; the server as written (and the corrected one) turns it away when its parser does |
| EventsEdit.FormatMatchesIsoDate | frontend/src/components/Events/EventsEdit.tsx:53 | the submitted text is the first ten characters of the date's ISO string |
| EventsEdit.SubmittedDateIsDateOnly | frontend/src/components/Events/EventsEdit.tsx:53 | a picked date is submitted as date-only text naming a real day, which the server as written (and the corrected one) stores as that day at midnight UTC |
| StringUtils.CapitalizeFirst | frontend/src/utils/string.ts:1-7 | empty stays empty; otherwise the upper-cased first character followed by the rest unchanged |
| StringUtils.CapitalizeFirstTouchesOnlyHead | frontend/src/utils/string.ts:6 | strings with the same first character capitalize equally exactly when their tails are equal |
| StringUtils.CapitalizeFirstIdempotent | frontend/src/utils/string.ts:6 | with an upper-casing that is single-character and stable, capitalizing twice is capitalizing once |

## Left out

- Time zone: all `Date` getters and `setFullYear` are taken in UTC. The source
  uses local time, and `dayjs` formats in local time.
- The clock (`Date.now()`, `new Date().getFullYear()`) is represented by the
  parameters `now` and `currentYear`. Nothing ties the two together, except in
  the one lemma that assumes it.
- These are parameters, not definitions:
  - native `new Date(string)` parsing;
  - `dayjs(string)`;
  - `Intl.DateTimeFormat` (the month label and `dateFormatter`);
  - `toLocaleUpperCase('ru-RU')`.
- The `Date` time-value range (±8.64e15 ms) is not modelled, and neither is the
  `RangeError` of `toISOString` outside it.
- `overdueDays` is an integer. Fractional, NaN or infinite values are not modelled.
- Strings are sequences of code points. JavaScript's UTF-16 code units matter
  only for `str[0]` of a surrogate pair in `capitalizeFirst`.
- Network I/O is not modelled: `fetch`, JSON decoding and `console` logging in
  `useEvents`. Each request is an `Outcome` value, and a JSON decoding failure
  is one of its `Failed` cases.
- React plumbing is not modelled: `useState`, `useCallback`, `useMemo`,
  `useEffect`, the fetch on mount, and updater batching. Each operation's state
  changes are applied in order, with no interleaving of concurrent requests.
- EventsStore.EventStore.AddEvent: `payload?.data` is a typed `Option<Event>`. A
  truthy value that is not an event is not modelled, and every falsy `data` is
  treated as missing.
- EventsStore.EventStore.UpdateEvent: `payload?.data` is handled as in `AddEvent`.
- EventsStore.ListOf: an array whose elements are not events is not modelled.
- `useGroupedEvents` guards against a `null` events array; sequences cannot be null.
- An absent and a `null` `overdueDays` are both `None`.
- Groups are values. `group.items.push` mutates an object that is shared only
  with the local `Map`, so the model has no aliasing to observe.
- Only the defaulting rules of the edit form are modelled. The rendering, labels,
  type options, `resetForm`, and the submit and delete handlers of `EventsEdit`
  are not.
- GroupedEvents.SortingEventsByYearMonth: it requires every group's month to be
  in 1..12, where the sort by `year * 12 + month - 1` agrees with the year-then-month
  comparator. Groups with other months never reach it, since months come from
  `getMonth() + 1`. For such groups the rank sort and the comparator can disagree:
  `(2025, 0)` ranks below `(2024, 13)`, while the comparator puts `(2024, 13)` first.
- GroupedEvents.CollectMonthGroups: the order of the groups it returns (the
  order in which each month first appears) is not stated. The sort by (year,
  month) that follows fixes the final order, and `GroupingIsUnique` shows the
  result does not depend on it.
- DateUtils.FormatDateString: the formatter (`dateFormatter`) is a parameter, so
  only the invalid-date path and the hand-off are stated.

## Findings

| source | as written | input that shows it | evidently intended | confidence | as-written member | corrected member |
|---|---|---|---|---|---|---|
| backend/utils/date.js:13-17 | the date-only branch tests only the digit shape `\d{4}-\d{2}-\d{2}` and returns the text plus `T00:00:00Z` | `"2024-13-45"` (month 13, day 45) gives `"2024-13-45T00:00:00Z"` | null for a date that is not a real day, as the function's header comment promises for invalid dates | not executed | BackendDate.ImpossibleDatePassesShapeTest | BackendDate.NormalizeInputDateChecked |

=== FILE: backend_date.dfy ===
/**
 * `normalizeInputDate` (`backend/utils/date.js`): the server's reading of a
 * date sent by a client, as an ISO 8601 / RFC 3339 UTC date-time string.
 */
module BackendDate {
  import opened Wrappers
  import opened Text
  import opened JsDate
  import opened DateUtils

  /** The argument: a JavaScript string, or a value of any other type. */
  datatype JsValue = JsString(s: string) | OtherValue

  /**
   * The characters `String.prototype.trim` removes: the ECMAScript WhiteSpace
   * (tab, vertical tab, form feed, space, no-break space, the byte order mark
   * and the Unicode space separators) and LineTerminator code points.
   */
  predicate IsJsWhitespace(c: char) {
    || c == '\U{9}' || c == '\U{B}' || c == '\U{C}' || c == '\U{20}' || c == '\U{A0}' || c == '\U{FEFF}'
    || c == '\U{1680}' || ('\U{2000}' <= c <= '\U{200A}') || c == '\U{202F}' || c == '\U{205F}' || c == '\U{3000}'
    || c == '\U{A}' || c == '\U{D}' || c == '\U{2028}' || c == '\U{2029}'
  }

  predicate AllWhitespace(s: string) {
    forall i :: 0 <= i < |s| ==> IsJsWhitespace(s[i])
  }

  function TrimStart(s: string): (r: string)
    ensures |r| <= |s| && r == s[|s| - |r|..]
    ensures r != [] ==> !IsJsWhitespace(r[0])
    ensures AllWhitespace(s[..|s| - |r|])
  {
    if s != [] && IsJsWhitespace(s[0]) then
      var r := TrimStart(s[1..]);
      assert s[1..][..|s| - 1 - |r|] == s[1..|s| - |r|];
      assert s[..|s| - |r|] == [s[0]] + s[1..|s| - |r|];
      r
    else s
  }

  function TrimEnd(s: string): (r: string)
    ensures |r| <= |s| && r == s[..|r|]
    ensures r != [] ==> !IsJsWhitespace(r[|r| - 1])
    ensures AllWhitespace(s[|r|..])
  {
    if s != [] && IsJsWhitespace(s[|s| - 1]) then
      var r := TrimEnd(s[..|s| - 1]);
      assert s[..|s| - 1][|r|..] == s[|r|..|s| - 1];
      assert s[|r|..] == s[|r|..|s| - 1] + [s[|s| - 1]];
      r
    else s
  }

  /** `s` is `r` with whitespace `s[..i]` before it and whitespace after it. */
  predicate Surrounds(s: string, r: string, i: int) {
    && 0 <= i && i + |r| <= |s|
    && s[i..i + |r|] == r
    && AllWhitespace(s[..i])
    && AllWhitespace(s[i + |r|..])
  }

  /** `s.trim()`: the part of `s` between its leading and trailing whitespace. */
  function Trim(s: string): (r: string)
    ensures |r| <= |s|
    ensures r != [] ==> !IsJsWhitespace(r[0]) && !IsJsWhitespace(r[|r| - 1])
    ensures Surrounds(s, r, |s| - |TrimStart(s)|)
  {
    var t := TrimStart(s);
    var r := TrimEnd(t);
    TrimParts(s, t, r);
    r
  }

  lemma TrimParts(s: string, t: string, r: string)
    requires |t| <= |s| && t == s[|s| - |t|..] && AllWhitespace(s[..|s| - |t|])
    requires |r| <= |t| && r == t[..|r|] && AllWhitespace(t[|r|..])
    ensures Surrounds(s, r, |s| - |t|)
  {
    var i := |s| - |t|;
    assert s[i..i + |r|] == r && s[i + |r|..] == t[|r|..];
  }

  /* ---------------- trimming ---------------- */

  lemma {:induction false} TrimStartSkipsWhitespace(w: string, s: string)
    requires AllWhitespace(w)
    ensures TrimStart(w + s) == TrimStart(s)
    decreases |w|
  {
    if w != [] {
      assert (w + s)[0] == w[0] && (w + s)[1..] == w[1..] + s;
      TrimStartSkipsWhitespace(w[1..], s);
    } else {
      assert w + s == s;
    }
  }

  lemma {:induction false} TrimEndSkipsWhitespace(s: string, w: string)
    requires AllWhitespace(w)
    ensures TrimEnd(s + w) == TrimEnd(s)
    decreases |w|
  {
    if w != [] {
      var n := |s + w|;
      assert (s + w)[n - 1] == w[|w| - 1] && (s + w)[..n - 1] == s + w[..|w| - 1];
      TrimEndSkipsWhitespace(s, w[..|w| - 1]);
    } else {
      assert s + w == s;
    }
  }

  /** Trailing text does not change where the leading whitespace of a string with some other character ends. */
  lemma {:induction false} TrimStartAppend(s: string, t: string)
    ensures TrimStart(s + t) == if TrimStart(s) == [] then TrimStart(t) else TrimStart(s) + t
    decreases |s|
  {
    if s == [] {
      assert s + t == t;
    } else {
      assert (s + t)[0] == s[0] && (s + t)[1..] == s[1..] + t;
      if IsJsWhitespace(s[0]) {
        TrimStartAppend(s[1..], t);
      }
    }
  }

  /** Whitespace around a string does not change its trimmed form. */
  lemma TrimIgnoresSurroundingWhitespace(w1: string, s: string, w2: string)
    requires AllWhitespace(w1) && AllWhitespace(w2)
    ensures Trim(w1 + s + w2) == Trim(s)
  {
    assert w1 + s + w2 == w1 + (s + w2);
    TrimStartSkipsWhitespace(w1, s + w2);
    TrimStartAppend(s, w2);
    if TrimStart(s) == [] {
      TrimStartSkipsWhitespace(w2, []);
      assert w2 + [] == w2;
    } else {
      TrimEndSkipsWhitespace(TrimStart(s), w2);
    }
  }

  /** Trimming is idempotent. */
  lemma TrimIdempotent(s: string)
    ensures Trim(Trim(s)) == Trim(s)
  {
    var t := Trim(s);
    if t != [] {
      assert TrimStart(t) == t;
      assert TrimEnd(t) == t;
    }
  }

  /* ---------------- the date-only shape ---------------- */

  /** `/^\d{4}-\d{2}-\d{2}$/.test(s)`. */
  predicate MatchesDateOnly(s: string): (b: bool)
    ensures b <==> |s| == 10 && s[4] == '-' && s[7] == '-'
                   && forall k :: 0 <= k < 10 && k != 4 && k != 7 ==> IsDigit(s[k])
  {
    && |s| == 10
    && AllDigits(s[..4])
    && s[4] == '-'
    && AllDigits(s[5..7])
    && s[7] == '-'
    && AllDigits(s[8..10])
  }

  const MIDNIGHT_UTC := "T00:00:00Z"

  /**
   * `normalizeInputDate`, with `new Date(trimmed)` passed in as `parse`: `None`
   * for a non-string, for a blank string and for text the parser rejects; the
   * trimmed text plus `T00:00:00Z` for a date-only shape; otherwise the ISO
   * string of the parsed instant.
   */
  function NormalizeInputDate(dateInput: JsValue, parse: NativeParse): (r: Option<string>)
    ensures dateInput.OtherValue? ==> r.None?
    ensures dateInput.JsString? && Trim(dateInput.s) == [] ==> r.None?
    ensures dateInput.JsString? && MatchesDateOnly(Trim(dateInput.s)) ==>
              r == Some(Trim(dateInput.s) + MIDNIGHT_UTC)
    ensures dateInput.JsString? && Trim(dateInput.s) != [] && !MatchesDateOnly(Trim(dateInput.s)) ==>
              r == (match parse(Trim(dateInput.s))
                    case None => None
                    case Some(d) => Some(ToIsoString(d)))
  {
    match dateInput
    case OtherValue => None
    case JsString(s) =>
      var trimmed := Trim(s);
      if |trimmed| == 0 then None
      else if MatchesDateOnly(trimmed) then Some(trimmed + MIDNIGHT_UTC)
      else
        match parse(trimmed)
        case None => None
        case Some(parsed) => Some(ToIsoString(parsed))
  }

  /** Surrounding whitespace does not change the result. */
  lemma NormalizeIgnoresSurroundingWhitespace(w1: string, s: string, w2: string, parse: NativeParse)
    requires AllWhitespace(w1) && AllWhitespace(w2)
    ensures NormalizeInputDate(JsString(w1 + s + w2), parse) == NormalizeInputDate(JsString(s), parse)
  {
    TrimIgnoresSurroundingWhitespace(w1, s, w2);
  }

  /** A date-only result is 20 characters, begins with the trimmed input and ends in `T00:00:00Z`. */
  lemma DateOnlyResultShape(s: string, parse: NativeParse)
    requires MatchesDateOnly(Trim(s))
    ensures var r := NormalizeInputDate(JsString(s), parse);
            r.Some? && |r.value| == 20 && r.value[..10] == Trim(s) && r.value[10..] == MIDNIGHT_UTC
  {
  }

  /** Every string result ends in `Z`: the server always stores UTC. */
  lemma NormalizedIsUtc(dateInput: JsValue, parse: NativeParse)
    requires NormalizeInputDate(dateInput, parse).Some?
    ensures var r := NormalizeInputDate(dateInput, parse).value;
            |r| >= 1 && r[|r| - 1] == 'Z'
  {
  }

  /* ---------------- the unchecked fast path ---------------- */

  /** The year, month and day written by a date-only string name a real day of the proleptic Gregorian calendar. */
  predicate DenotesCalendarDate(t: string)
    requires MatchesDateOnly(t)
  {
    var year := DigitsValue(t[..4]);
    var month := DigitsValue(t[5..7]);
    var day := DigitsValue(t[8..10]);
    1 <= month <= 12 && 1 <= day <= DaysInMonth(year, month - 1)
  }

  /** Whether a date-only string names a real day depends only on its three digit groups. */
  lemma DenotesCalendarDateOf(t: string, y: string, m: string, d: string)
    requires MatchesDateOnly(t) && t[..4] == y && t[5..7] == m && t[8..10] == d
    ensures DenotesCalendarDate(t) <==>
              1 <= DigitsValue(m) <= 12 && 1 <= DigitsValue(d) <= DaysInMonth(DigitsValue(y), DigitsValue(m) - 1)
  {
  }

  /** A date-only string needs no trimming. */
  lemma DateOnlyIsTrimmed(t: string)
    requires MatchesDateOnly(t)
    ensures Trim(t) == t
  {
    assert IsDigit(t[..4][0]) && IsDigit(t[8..10][1]);
    assert !IsJsWhitespace(t[0]) && !IsJsWhitespace(t[|t| - 1]);
  }

  /** A date-only string whose month field is above 12 names no day. */
  lemma NoMonthBeyondDecember(t: string, m: string)
    requires MatchesDateOnly(t) && t[5..7] == m && DigitsValue(m) > 12
    ensures !DenotesCalendarDate(t)
  {
  }

  lemma ImpossibleDateFields()
    ensures MatchesDateOnly("2024-13-45") && "2024-13-45"[5..7] == "13"
  {
    var t := "2024-13-45";
    assert t[..4] == "2024" && t[5..7] == "13" && t[8..10] == "45";
  }

  lemma ThirteenValue()
    ensures AllDigits("13") && DigitsValue("13") == 13
  {
    assert "13"[..1] == "1";
  }

  /** `2024-13-45` has the date-only shape but names no day: there is no month 13. */
  lemma ImpossibleDateShape()
    ensures MatchesDateOnly("2024-13-45") && !DenotesCalendarDate("2024-13-45") && Trim("2024-13-45") == "2024-13-45"
  {
    ImpossibleDateFields();
    DateOnlyIsTrimmed("2024-13-45");
    ThirteenValue();
    NoMonthBeyondDecember("2024-13-45", "13");
  }

  /**
   * The shape test lets impossible dates through: month 13, day 45 gives a
   * string result, although the function is meant to give `null` for an
   * invalid date.
   */
  lemma ImpossibleDatePassesShapeTest(parse: NativeParse)
    ensures MatchesDateOnly("2024-13-45") && !DenotesCalendarDate("2024-13-45")
    ensures NormalizeInputDate(JsString("2024-13-45"), parse) == Some("2024-13-45T00:00:00Z")
  {
    ImpossibleDateShape();
    DateOnlyPassesThrough("2024-13-45", parse);
    assert "2024-13-45" + MIDNIGHT_UTC == "2024-13-45T00:00:00Z";
  }

  /** Date-only text, whatever its digits, comes back with `T00:00:00Z` appended. */
  lemma DateOnlyPassesThrough(t: string, parse: NativeParse)
    requires MatchesDateOnly(t)
    ensures NormalizeInputDate(JsString(t), parse) == Some(t + MIDNIGHT_UTC)
  {
    DateOnlyIsTrimmed(t);
  }

  /**
   * `normalizeInputDate` with the date-only shape accepted only when it
   * names a real day, and `None` otherwise.
   */
  function NormalizeInputDateChecked(dateInput: JsValue, parse: NativeParse): (r: Option<string>)
    ensures dateInput.JsString? && MatchesDateOnly(Trim(dateInput.s)) && r.Some? ==>
              DenotesCalendarDate(Trim(dateInput.s))
    ensures (dateInput.OtherValue? || !MatchesDateOnly(Trim(dateInput.s)) || DenotesCalendarDate(Trim(dateInput.s)))
              ==> r == NormalizeInputDate(dateInput, parse)
  {
    match dateInput
    case OtherValue => None
    case JsString(s) =>
      var trimmed := Trim(s);
      if |trimmed| == 0 then None
      else if MatchesDateOnly(trimmed) then
        if DenotesCalendarDate(trimmed) then Some(trimmed + MIDNIGHT_UTC) else None
      else
        match parse(trimmed)
        case None => None
        case Some(parsed) => Some(ToIsoString(parsed))
  }

  /** The checked version turns away month 13, day 45. */
  lemma CheckedRejectsImpossibleDate(parse: NativeParse)
    ensures NormalizeInputDateChecked(JsString("2024-13-45"), parse) == None
  {
    ImpossibleDateShape();
  }
}

=== FILE: date_utils.dfy ===
/** The client's date helpers (`frontend/src/utils/date.ts`), over the UTC `Date` model. */
module DateUtils {
  import opened Wrappers
  import opened JsDate

  /**
   * `new Date(s)` for an arbitrary string: the engine's own parser, which this
   * model does not define. `None` stands for an Invalid Date (time value NaN).
   */
  type NativeParse = string -> Option<Date>

  /** `isSameCalendarDay`: same year, month and day of month, i.e. the same calendar day. */
  function IsSameCalendarDay(a: Date, b: Date): (r: bool)
    ensures r <==> DayNumber(a) == DayNumber(b)
  {
    DayNumberInjective(a, b);
    a.year == b.year && a.month0 == b.month0 && a.date == b.date
  }

  /**
   * `formatDateString`: the empty string for an unparseable input; otherwise the
   * locale formatter's rendering, which is a parameter here.
   */
  function FormatDateString(s: string, parse: NativeParse, format: Date -> string): (r: string)
    ensures parse(s).None? ==> r == ""
    ensures parse(s).Some? ==> r == format(parse(s).value)
  {
    match parse(s)
    case None => ""
    case Some(d) => format(d)
  }

  /** `parseDateSafe`: `null` for the empty string and for an Invalid Date. */
  function ParseDateSafe(s: string, parse: NativeParse): (r: Option<Date>)
    ensures r.None? <==> s == "" || parse(s).None?
    ensures r.Some? ==> r == parse(s)
  {
    if s == "" then None else parse(s)
  }

  /**
   * `isOverdue`: at least `overdueDays` whole days of milliseconds have passed
   * between the date and `now` (the clock reading `Date.now()`).
   */
  function IsOverdue(d: Date, overdueDays: int, now: int): (r: bool)
    ensures r <==> now - Time(d) >= overdueDays * MS_PER_DAY
  {
    var eventTime := Time(d);
    var overdueMs := overdueDays * MS_PER_DAY;
    now - eventTime >= overdueMs
  }

  /** A date overdue by `n` days is overdue by any fewer days, at any later instant. */
  lemma OverdueMonotone(d: Date, n: int, m: int, now: int, later: int)
    requires IsOverdue(d, n, now) && m <= n && now <= later
    ensures IsOverdue(d, m, later)
  {
  }

  /** With a zero threshold, every instant up to `now` is overdue, and no later one. */
  lemma OverdueAtZero(d: Date, now: int)
    ensures IsOverdue(d, 0, now) <==> Time(d) <= now
  {
  }

  /**
   * The test counts milliseconds, not calendar days: 23:00 on 2025-06-14 is a
   * calendar day before 01:00 on 2025-06-15, yet not overdue by one day.
   */
  lemma OverdueIsNotCalendarDayTest()
    ensures var d: Date := DateValue(2025, 5, 14, 23 * 3600000);
            var nowDate: Date := DateValue(2025, 5, 15, 3600000);
            DayNumber(nowDate) == DayNumber(d) + 1 && !IsOverdue(d, 1, Time(nowDate))
  {
  }

  /** `getYear` (`getFullYear`): the year whose days contain the instant. */
  function GetYear(d: Date): (r: int)
    ensures DaysBeforeYear(r) <= Time(d) / MS_PER_DAY < DaysBeforeYear(r + 1)
  {
    TimeDivDay(d);
    DayWithinYear(d.year, d.month0, d.date);
    d.year
  }

  /** `getMonth`: the zero-based month plus one, so 1..12; the month containing the instant. */
  function GetMonth(d: Date): (r: int)
    ensures 1 <= r <= 12
    ensures MakeDay(d.year, r - 1, 1) <= Time(d) / MS_PER_DAY < MakeDay(d.year, r - 1, 1) + DaysInMonth(d.year, r - 1)
  {
    TimeDivDay(d);
    d.month0 + 1
  }

  /** `getDay` (`getDate`): the day of the month, 1..31, counted from the month's first day. */
  function GetDay(d: Date): (r: int)
    ensures 1 <= r <= 31
    ensures r == Time(d) / MS_PER_DAY - MakeDay(d.year, d.month0, 1) + 1
  {
    TimeDivDay(d);
    d.date
  }

  /** The three getters recover the calendar day of the instant. */
  lemma GettersLocateInstant(d: Date)
    ensures 1 <= GetDay(d) <= DaysInMonth(GetYear(d), GetMonth(d) - 1)
    ensures MakeDay(GetYear(d), GetMonth(d) - 1, GetDay(d)) == Time(d) / MS_PER_DAY
  {
    TimeDivDay(d);
  }
}

=== FILE: event_types.dfy ===
/** The event record and its category (`frontend/src/types/events.ts`, `frontend/src/enums/events.ts`). */
module EventTypes {

  /** `eventType`: other events, holidays, birthdays. */
  datatype EventType = Other | Holiday | Birthday

  /** A stored event; `date` is the text the server sent, parsed only when needed. */
  datatype Event = Event(
    id: string,
    title: string,
    date: string,
    kind: EventType,
    isYearly: bool,
    description: string)

  /** The values the edit form submits. */
  datatype EventFormValues = EventFormValues(
    title: string,
    date: string,
    kind: EventType,
    isYearly: bool,
    tags: seq<string>,
    description: string)
}

=== FILE: events_edit.dfy ===
/**
 * The defaulting rules of the event edit form
 * (`frontend/src/components/Events/EventsEdit.tsx`): the form's initial values
 * computed from the values it is opened with, and the values it submits
 * computed from what the form holds.
 */
module EventsEdit {
  import opened Wrappers
  import opened Text
  import opened JsDate
  import opened EventTypes
  import opened BackendDate

  /** A `dayjs` object: a calendar date (its time of day is not shown by the form), or an invalid date. */
  datatype Dayjs = Moment(at: Date) | InvalidDayjs

  /** `dayjs(text)`: a library parser, so a parameter. */
  type DayjsParse = string -> Dayjs

  /** The date part of `format('YYYY-MM-DD')`: `String(year).padStart(4, '0')`. */
  function YearField(y: int): (r: string)
    ensures 0 <= y <= 9999 ==> |r| == 4 && AllDigits(r) && DigitsValue(r) == y
  {
    var r := PadStart(IntToString(y), 4, '0');
    if 0 <= y <= 9999 then
      assert Pow10(4) == 10000;
      NatToStringLength(y, 4);
      NatToStringRoundTrip(y);
      ZeroPadValue(NatToString(y), 4);
      r
    else r
  }

  /** `d.format('YYYY-MM-DD')`; dayjs renders an invalid date as `Invalid Date`. */
  function FormatDayjs(d: Dayjs): (r: string)
    ensures d.InvalidDayjs? ==> r == INVALID_DATE
    ensures d.Moment? && 0 <= d.at.year <= 9999 ==>
              && |r| == 10 && r[4] == '-' && r[7] == '-'
              && r[..4] == YearField(d.at.year) && r[5..7] == Pad2(d.at.month0 + 1) && r[8..10] == Pad2(d.at.date)
  {
    match d
    case InvalidDayjs => INVALID_DATE
    case Moment(at) =>
      var y := YearField(at.year);
      var m := Pad2(at.month0 + 1);
      var dd := Pad2(at.date);
      var r := DashJoin(y, m, dd);
      if 0 <= at.year <= 9999 then
        FieldsOfJoin(y, "-", m, dd);
        r
      else r
  }

  const INVALID_DATE := "Invalid Date"

  /** What the form holds: every field may be missing. */
  datatype FormValuesInternal = FormValuesInternal(
    title: Option<string>,
    date: Option<Dayjs>,
    kind: Option<EventType>,
    isYearly: Option<bool>,
    tags: Option<seq<string>>,
    description: Option<string>)

  /** `Partial<EventFormValues>`: the values the form is opened with, every field optional. */
  datatype PartialFormValues = PartialFormValues(
    title: Option<string>,
    date: Option<string>,
    kind: Option<EventType>,
    isYearly: Option<bool>,
    tags: Option<seq<string>>,
    description: Option<string>)

  /** `DEFAULT_EVENT_TYPE`. */
  const DEFAULT_EVENT_TYPE := Holiday

  /**
   * `toExternalValues`. Every `eventType` value is a non-empty string and
   * every array and `dayjs` object is truthy, so `||` replaces only missing
   * fields (and an empty title or description by the same `""`).
   */
  function ToExternalValues(values: FormValuesInternal): (r: EventFormValues)
    ensures r.title == values.title.GetOr("")
    ensures values.date.None? <==> r.date == ""
    ensures values.date.Some? ==> r.date == FormatDayjs(values.date.value)
    ensures r.kind == values.kind.GetOr(DEFAULT_EVENT_TYPE)
    ensures r.isYearly <==> values.isYearly == Some(true)
    ensures r.tags == values.tags.GetOr([])
    ensures r.description == values.description.GetOr("")
  {
    EventFormValues(
      title := if values.title.Some? then values.title.value else "",
      date := match values.date
              case Some(d) => FormatDayjs(d)
              case None => "",
      kind := if values.kind.Some? then values.kind.value else DEFAULT_EVENT_TYPE,
      isYearly := match values.isYearly
                  case Some(b) => b
                  case None => false,
      tags := if values.tags.Some? then values.tags.value else [],
      description := if values.description.Some? then values.description.value else "")
  }

  /**
   * `formInitialValues`: `initialValues` is `None` when the form creates an
   * event. A new event starts yearly; an edited one is yearly only if it says
   * so. A date is handed to `dayjs` only when it is a non-empty string; the
   * type is always filled in.
   */
  function FormInitialValues(initialValues: Option<PartialFormValues>, dayjs: DayjsParse): (r: FormValuesInternal)
    ensures initialValues.None? ==> r.kind == Some(DEFAULT_EVENT_TYPE)
    ensures initialValues.Some? ==> r.kind == Some(initialValues.value.kind.GetOr(DEFAULT_EVENT_TYPE))
    ensures initialValues.None? ==> r.title.None? && r.tags.None? && r.description.None?
    ensures initialValues.Some? ==>
              r.title == initialValues.value.title && r.tags == initialValues.value.tags
              && r.description == initialValues.value.description
    ensures initialValues.None? ==> r.isYearly == Some(true)
    ensures initialValues.Some? ==> r.isYearly == Some(initialValues.value.isYearly.GetOr(false))
    ensures r.date.Some? <==> initialValues.Some? && initialValues.value.date.Some? && initialValues.value.date.value != ""
    ensures r.date.Some? ==> r.date.value == dayjs(initialValues.value.date.value)
  {
    var iv := initialValues.GetOr(PartialFormValues(None, None, None, None, None, None));
    var isEditing := initialValues.Some?;
    FormValuesInternal(
      title := iv.title,
      date := if iv.date.Some? && iv.date.value != "" then Some(dayjs(iv.date.value)) else None,
      kind := Some(if iv.kind.Some? then iv.kind.value else DEFAULT_EVENT_TYPE),
      isYearly := Some(if isEditing then (if iv.isYearly.Some? then iv.isYearly.value else false) else true),
      tags := iv.tags,
      description := iv.description)
  }

  /* ---------------- submitting without changes ---------------- */

  /** The creation form, submitted untouched, gives an untitled yearly holiday with no date. */
  lemma NewEventDefaults(dayjs: DayjsParse)
    ensures ToExternalValues(FormInitialValues(None, dayjs)) == EventFormValues("", "", Holiday, true, [], "")
  {
  }

  /** The values of an event with every field given, as the edit form receives them. */
  function AllGiven(v: EventFormValues): (p: PartialFormValues)
    ensures p.title.Some? && p.date.Some? && p.kind.Some? && p.isYearly.Some? && p.tags.Some? && p.description.Some?
  {
    PartialFormValues(Some(v.title), Some(v.date), Some(v.kind), Some(v.isYearly), Some(v.tags), Some(v.description))
  }

  /**
   * Opening the edit form on complete values and submitting it untouched gives
   * the same values back, provided `dayjs` reads the date back to the text it
   * came from (an empty date stays empty).
   */
  lemma EditRoundTrip(v: EventFormValues, dayjs: DayjsParse)
    requires v.date != "" ==> FormatDayjs(dayjs(v.date)) == v.date
    ensures ToExternalValues(FormInitialValues(Some(AllGiven(v)), dayjs)) == v
  {
  }

  /**
   * Opening the edit form on any values and submitting it untouched fills in
   * each missing field with its default: empty text, no tags, a holiday, not
   * yearly, and no date for missing or empty date text.
   */
  lemma EditSubmitsDefaults(v: PartialFormValues, dayjs: DayjsParse)
    ensures var r := ToExternalValues(FormInitialValues(Some(v), dayjs));
            && r.title == v.title.GetOr("")
            && r.date == (if v.date.Some? && v.date.value != "" then FormatDayjs(dayjs(v.date.value)) else "")
            && r.kind == v.kind.GetOr(DEFAULT_EVENT_TYPE)
            && (r.isYearly <==> v.isYearly == Some(true))
            && r.tags == v.tags.GetOr([])
            && r.description == v.description.GetOr("")
  {
  }

  /**
   * A date `dayjs` cannot read is submitted as the text `Invalid Date`. The
   * server turns that text away exactly when its native parser does, which
   * is what the second requires says; the corrected normalisation agrees.
   */
  lemma UnreadableDateSubmitsInvalidDate(v: PartialFormValues, dayjs: DayjsParse, parse: DateUtils.NativeParse)
    requires v.date.Some? && v.date.value != "" && dayjs(v.date.value).InvalidDayjs?
    requires parse(INVALID_DATE).None?
    ensures ToExternalValues(FormInitialValues(Some(v), dayjs)).date == INVALID_DATE
    ensures NormalizeInputDate(JsString(INVALID_DATE), parse).None?
    ensures NormalizeInputDateChecked(JsString(INVALID_DATE), parse).None?
  {
    assert !IsJsWhitespace(INVALID_DATE[0]) && !IsJsWhitespace(INVALID_DATE[|INVALID_DATE| - 1]);
    assert Trim(INVALID_DATE) == INVALID_DATE;
  }

  /* ---------------- what the server makes of a submitted date ---------------- */

  /** For years 0 to 9999 the form writes the year as `toISOString` does. */
  lemma YearFieldIsIsoYear(y: int)
    requires 0 <= y <= 9999
    ensures YearField(y) == IsoYear(y)
  {
    assert IntToString(y) == NatToString(y);
  }

  /** A Date and its ISO string agree on the date part: the form's text for it is the ISO string's first ten characters. */
  lemma FormatMatchesIsoDate(d: Date)
    requires 0 <= d.year <= 9999
    ensures FormatDayjs(Moment(d)) == ToIsoString(d)[..10]
  {
    FormatIsIsoDatePart(d);
    PrefixOfJoin(IsoDatePart(d), IsoTimePart(d));
  }

  lemma FormatIsIsoDatePart(d: Date)
    requires 0 <= d.year <= 9999
    ensures FormatDayjs(Moment(d)) == IsoDatePart(d)
  {
    YearFieldIsIsoYear(d.year);
    var m := Pad2(d.month0 + 1);
    var dd := Pad2(d.date);
    assert FormatDayjs(Moment(d)) == DashJoin(YearField(d.year), m, dd);
    assert IsoDatePart(d) == DashJoin(IsoYear(d.year), m, dd);
  }

  lemma PrefixOfJoin<T>(a: seq<T>, b: seq<T>)
    ensures (a + b)[..|a|] == a
  {
  }

  /** Four digits, a dash, two digits, a dash and two digits make date-only text with those digit groups. */
  lemma DashedShape(f: string, y: string, m: string, dd: string)
    requires f == y + "-" + m + "-" + dd
    requires |y| == 4 && |m| == 2 && |dd| == 2 && AllDigits(y) && AllDigits(m) && AllDigits(dd)
    ensures MatchesDateOnly(f) && f[..4] == y && f[5..7] == m && f[8..10] == dd
  {
    FieldsOfJoin(y, "-", m, dd);
  }

  /** The form's text for a date of years 0 to 9999 has the date-only shape and names that real day. */
  lemma FormattedDateShape(d: Date, f: string)
    requires 0 <= d.year <= 9999 && f == FormatDayjs(Moment(d))
    ensures MatchesDateOnly(f) && DenotesCalendarDate(f)
  {
    var y := YearField(d.year);
    var m := Pad2(d.month0 + 1);
    var dd := Pad2(d.date);
    assert f == DashJoin(y, m, dd);
    DashedShape(f, y, m, dd);
    DenotesCalendarDateOf(f, y, m, dd);
  }

  /**
   * A date picked in the form (a real day of years 0 to 9999) is submitted in
   * the shape the server takes as a date at midnight UTC, with the same year,
   * month and day; the corrected normalisation, which checks the day, agrees.
   */
  lemma SubmittedDateIsDateOnly(d: Date, parse: DateUtils.NativeParse)
    requires 0 <= d.year <= 9999
    ensures MatchesDateOnly(FormatDayjs(Moment(d)))
    ensures DenotesCalendarDate(FormatDayjs(Moment(d)))
    ensures NormalizeInputDate(JsString(FormatDayjs(Moment(d))), parse) == Some(FormatDayjs(Moment(d)) + MIDNIGHT_UTC)
    ensures NormalizeInputDateChecked(JsString(FormatDayjs(Moment(d))), parse)
              == Some(FormatDayjs(Moment(d)) + MIDNIGHT_UTC)
  {
    var f := FormatDayjs(Moment(d));
    FormattedDateShape(d, f);
    DateOnlyIsTrimmed(f);
  }
}

=== FILE: events_store.dfy ===
/**
 * The client-side event list (`frontend/src/hooks/useEvents.ts`): the list,
 * the loading flag and the last error message, and how fetching, adding,
 * updating and deleting change them. The HTTP exchange of each operation is
 * given as an outcome value.
 */
module EventsStore {
  import opened Wrappers
  import opened Text
  import opened EventTypes

  /** What a `catch` block receives: an `Error` with its message, or any other thrown value. */
  datatype Thrown = ErrorThrown(message: string) | ValueThrown

  /**
   * How one request ended: it threw (the request itself or reading its JSON
   * body), or the server answered with a status that is not ok, or it
   * answered ok with a payload.
   */
  datatype Outcome<P> = Failed(thrown: Thrown) | NotOk(status: int, statusText: string) | Ok(payload: P)

  /** `payload?.data` of the list request: an array of events, or anything else. */
  datatype ListPayload = ArrayData(list: seq<Event>) | NotAnArray

  /** `payload?.data ?? null` of a create or update request. */
  type EventPayload = Option<Event>

  const LOAD_FAILED := "Ошибка загрузки событий: "
  const LOAD_UNKNOWN := "Неизвестная ошибка при загрузке событий"
  const CREATE_FAILED := "Ошибка создания события: "
  const CREATE_BAD_REPLY := "Некорректный ответ сервера при создании события"
  const CREATE_UNKNOWN := "Неизвестная ошибка при создании события"
  const UPDATE_FAILED := "Ошибка обновления события: "
  const UPDATE_BAD_REPLY := "Некорректный ответ сервера при обновлении события"
  const UPDATE_UNKNOWN := "Неизвестная ошибка при обновлении события"
  const DELETE_FAILED := "Ошибка удаления события: "
  const DELETE_UNKNOWN := "Неизвестная ошибка при удалении события"

  /** `err instanceof Error ? err.message : unknown`. */
  function CaughtMessage(t: Thrown, unknown: string): (m: string)
    ensures t.ErrorThrown? ==> m == t.message
    ensures t.ValueThrown? ==> m == unknown
  {
    match t
    case ErrorThrown(message) => message
    case ValueThrown => unknown
  }

  /** The message of the `Error` thrown for a status that is not ok: `${prefix}${status} ${statusText}`. */
  function StatusMessage(prefix: string, status: int, statusText: string): (m: string)
    ensures |m| > |prefix| + |statusText| + 1
    ensures m[..|prefix|] == prefix
    ensures m[|m| - |statusText|..] == statusText
    ensures m[|prefix|..|m| - |statusText| - 1] == IntToString(status) && m[|m| - |statusText| - 1] == ' '
  {
    prefix + IntToString(status) + " " + statusText
  }

  /** The list a successful fetch stores: `Array.isArray(payload?.data) ? payload.data : []`. */
  function ListOf(p: ListPayload): (r: seq<Event>)
    ensures p.ArrayData? ==> r == p.list
    ensures p.NotAnArray? ==> r == []
  {
    match p
    case ArrayData(list) => list
    case NotAnArray => []
  }

  /** The `error` a request leaves, or `None` when it succeeded. */
  function ErrorAfter<P>(outcome: Outcome<P>, failed: string, unknown: string, succeeded: P -> bool,
                         badReply: string): (r: Option<string>)
    ensures outcome.Ok? && succeeded(outcome.payload) <==> r.None?
    ensures outcome.Failed? ==> r == Some(CaughtMessage(outcome.thrown, unknown))
    ensures outcome.NotOk? ==> r == Some(StatusMessage(failed, outcome.status, outcome.statusText))
    ensures outcome.Ok? && !succeeded(outcome.payload) ==> r == Some(badReply)
  {
    match outcome
    case Failed(t) => Some(CaughtMessage(t, unknown))
    case NotOk(status, statusText) => Some(StatusMessage(failed, status, statusText))
    case Ok(p) => if succeeded(p) then None else Some(badReply)
  }

  /* ---------------- the list updates ---------------- */

  /** `prev.map(event => event.id === id ? updatedEvent : event)`. */
  function ReplaceById(events: seq<Event>, id: string, updated: Event): (r: seq<Event>)
    ensures |r| == |events|
    ensures forall i :: 0 <= i < |events| ==> r[i] == if events[i].id == id then updated else events[i]
  {
    if events == [] then []
    else [if events[0].id == id then updated else events[0]] + ReplaceById(events[1..], id, updated)
  }

  /** `prev.filter((event) => event.id !== id)`. */
  function RemoveById(events: seq<Event>, id: string): (r: seq<Event>)
    ensures |r| <= |events|
    ensures forall e :: e in r <==> e in events && e.id != id
  {
    if events == [] then []
    else if events[0].id == id then RemoveById(events[1..], id)
    else [events[0]] + RemoveById(events[1..], id)
  }

  /** Filtering distributes over concatenation: the kept events stay in their order. */
  lemma {:induction false} RemoveByIdAppend(a: seq<Event>, b: seq<Event>, id: string)
    ensures RemoveById(a + b, id) == RemoveById(a, id) + RemoveById(b, id)
    decreases |a|
  {
    if a == [] {
      assert a + b == b;
    } else {
      assert (a + b)[0] == a[0] && (a + b)[1..] == a[1..] + b;
      RemoveByIdAppend(a[1..], b, id);
      if a[0].id != id {
        assert [a[0]] + (RemoveById(a[1..], id) + RemoveById(b, id))
            == ([a[0]] + RemoveById(a[1..], id)) + RemoveById(b, id);
      }
    }
  }

  /** Deleting an id no event has leaves the list as it was. */
  lemma {:induction false} RemoveByIdAbsent(events: seq<Event>, id: string)
    requires forall e :: e in events ==> e.id != id
    ensures RemoveById(events, id) == events
    decreases |events|
  {
    if events != [] {
      assert forall e :: e in events[1..] ==> e in events;
      RemoveByIdAbsent(events[1..], id);
    }
  }

  /** Deleting twice is deleting once. */
  lemma RemoveByIdIdempotent(events: seq<Event>, id: string)
    ensures RemoveById(RemoveById(events, id), id) == RemoveById(events, id)
  {
    RemoveByIdAbsent(RemoveById(events, id), id);
  }

  /** Deleting an event just added removes it again, along with older events of the same id. */
  lemma AddThenDelete(events: seq<Event>, saved: Event)
    ensures RemoveById([saved] + events, saved.id) == RemoveById(events, saved.id)
  {
    assert ([saved] + events)[1..] == events;
  }

  /** Updating an id no event has leaves the list as it was. */
  lemma ReplaceByIdAbsent(events: seq<Event>, id: string, updated: Event)
    requires forall e :: e in events ==> e.id != id
    ensures ReplaceById(events, id, updated) == events
  {
  }

  /** After an update that keeps the id, deleting that id removes exactly what deleting it before would. */
  lemma {:induction false} ReplaceThenRemove(events: seq<Event>, id: string, updated: Event)
    requires updated.id == id
    ensures RemoveById(ReplaceById(events, id, updated), id) == RemoveById(events, id)
    decreases |events|
  {
    if events != [] {
      var r := ReplaceById(events, id, updated);
      assert r[1..] == ReplaceById(events[1..], id, updated);
      ReplaceThenRemove(events[1..], id, updated);
    }
  }

  /* ---------------- the store ---------------- */

  /** The state `useEvents` keeps: `events`, `loading` and `error`. */
  class EventStore {
    var events: seq<Event>
    var loading: bool
    var error: Option<string>

    /** The initial state: no events, not loading, no error. */
    constructor ()
      ensures events == [] && !loading && error == None
    {
      events := [];
      loading := false;
      error := None;
    }

    /**
     * `fetchEvents`: loading and no error while the request runs; afterwards
     * the list from an ok reply (or `[]` when its data is not an array), or
     * the old list and an error message; loading is off in every case.
     */
    method FetchEvents(outcome: Outcome<ListPayload>)
      modifies this
      ensures !loading
      ensures events == if outcome.Ok? then ListOf(outcome.payload) else old(events)
      ensures error == ErrorAfter(outcome, LOAD_FAILED, LOAD_UNKNOWN, _ => true, "")
      ensures error.None? <==> outcome.Ok?
    {
      loading := true;
      error := None;
      match outcome {
        case Ok(payload) =>
          var list := if payload.ArrayData? then payload.list else [];
          events := list;
        case NotOk(status, statusText) =>
          error := Some(StatusMessage(LOAD_FAILED, status, statusText));
        case Failed(t) =>
          error := Some(CaughtMessage(t, LOAD_UNKNOWN));
      }
      loading := false;
    }

    /** `refreshEvents`: another fetch. */
    method RefreshEvents(outcome: Outcome<ListPayload>)
      modifies this
      ensures !loading
      ensures events == if outcome.Ok? then ListOf(outcome.payload) else old(events)
      ensures error == ErrorAfter(outcome, LOAD_FAILED, LOAD_UNKNOWN, _ => true, "")
      ensures error.None? <==> outcome.Ok?
    {
      FetchEvents(outcome);
    }

    /**
     * `addEvent`: on an ok reply carrying the saved event, that event is put
     * first and the result is true; otherwise the list is unchanged, `error`
     * says why and the result is false.
     */
    method AddEvent(outcome: Outcome<EventPayload>) returns (ok: bool)
      modifies this
      ensures ok <==> outcome.Ok? && outcome.payload.Some?
      ensures events == if ok then [outcome.payload.value] + old(events) else old(events)
      ensures error == ErrorAfter(outcome, CREATE_FAILED, CREATE_UNKNOWN, (p: EventPayload) => p.Some?, CREATE_BAD_REPLY)
      ensures ok <==> error.None?
      ensures loading == old(loading)
    {
      error := None;
      match outcome {
        case Ok(savedEvent) =>
          if savedEvent.None? {
            error := Some(CREATE_BAD_REPLY);
            return false;
          }
          events := [savedEvent.value] + events;
          return true;
        case NotOk(status, statusText) =>
          error := Some(StatusMessage(CREATE_FAILED, status, statusText));
          return false;
        case Failed(t) =>
          error := Some(CaughtMessage(t, CREATE_UNKNOWN));
          return false;
      }
    }

    /**
     * `updateEvent`: on an ok reply carrying the updated event, every event
     * with the id is replaced by it; otherwise the list is unchanged and
     * `error` says why.
     */
    method UpdateEvent(id: string, outcome: Outcome<EventPayload>) returns (ok: bool)
      modifies this
      ensures ok <==> outcome.Ok? && outcome.payload.Some?
      ensures events == if ok then ReplaceById(old(events), id, outcome.payload.value) else old(events)
      ensures error == ErrorAfter(outcome, UPDATE_FAILED, UPDATE_UNKNOWN, (p: EventPayload) => p.Some?, UPDATE_BAD_REPLY)
      ensures ok <==> error.None?
      ensures loading == old(loading)
    {
      error := None;
      match outcome {
        case Ok(updatedEvent) =>
          if updatedEvent.None? {
            error := Some(UPDATE_BAD_REPLY);
            return false;
          }
          events := ReplaceById(events, id, updatedEvent.value);
          return true;
        case NotOk(status, statusText) =>
          error := Some(StatusMessage(UPDATE_FAILED, status, statusText));
          return false;
        case Failed(t) =>
          error := Some(CaughtMessage(t, UPDATE_UNKNOWN));
          return false;
      }
    }

    /**
     * `deleteEvent`: on an ok reply every event with the id is removed and
     * the others keep their order; otherwise the list is unchanged and
     * `error` says why. The reply's body is not read.
     */
    method DeleteEvent(id: string, outcome: Outcome<()>) returns (ok: bool)
      modifies this
      ensures ok <==> outcome.Ok?
      ensures events == if ok then RemoveById(old(events), id) else old(events)
      ensures error == ErrorAfter(outcome, DELETE_FAILED, DELETE_UNKNOWN, _ => true, "")
      ensures ok <==> error.None?
      ensures loading == old(loading)
    {
      error := None;
      match outcome {
        case Ok(_) =>
          events := RemoveById(events, id);
          return true;
        case NotOk(status, statusText) =>
          error := Some(StatusMessage(DELETE_FAILED, status, statusText));
          return false;
        case Failed(t) =>
          error := Some(CaughtMessage(t, DELETE_UNKNOWN));
          return false;
      }
    }
  }
}

=== FILE: grouped_events.dfy ===
/**
 * Month grouping of events (`frontend/src/hooks/useGroupedEvents.ts`).
 *
 * Each event's date is parsed; unparseable dates are skipped. An event whose
 * date is at least `overdueDays` days (of milliseconds) in the past is overdue:
 * an overdue one-off event is dropped, an overdue yearly event moves to the
 * current year, or to the next one when that copy is overdue too; any other
 * event keeps its own year. Month and day always come from the parsed date.
 * The survivors are bucketed by `YYYY-MM`, each bucket sorted by day, and the
 * buckets sorted by (year, month).
 */
module GroupedEvents {
  import opened Wrappers
  import opened Text
  import opened JsDate
  import opened DateUtils
  import opened EventTypes
  import opened StableSort

  /** `EventWithCalendar`: the event with the year, month (1..12) and day it is shown under. */
  datatype CalEvent = CalEvent(event: Event, year: int, month: int, day: int)

  /** `EventsMonthGroup`. */
  datatype MonthGroup = MonthGroup(year: int, month: int, key: string, labelText: string, items: seq<CalEvent>)

  /** `GroupOptions`; `None` is an absent `overdueDays`. */
  datatype GroupOptions = GroupOptions(overdueDays: Option<int>)

  const DEFAULT_OVERDUE_DAYS := 4

  /** What the grouping reads from its surroundings: `Date.now()`, the clock's full year, and `new Date(s)`. */
  datatype Ambient = Ambient(now: int, currentYear: int, parse: NativeParse)

  /** The localized month name of `new Date(year, month - 1)` (an `Intl` formatter, not modelled). */
  type MonthLabel = (int, int) -> string

  /** `options?.overdueDays ?? DEFAULT_OVERDUE_DAYS`. */
  function OverdueDaysOf(options: Option<GroupOptions>): (r: int)
    ensures options.Some? && options.value.overdueDays.Some? ==> r == options.value.overdueDays.value
    ensures options.None? || options.value.overdueDays.None? ==> r == 4
  {
    match options
    case None => DEFAULT_OVERDUE_DAYS
    case Some(o) => o.overdueDays.GetOr(DEFAULT_OVERDUE_DAYS)
  }

  /** `monthKey`: the year, a dash, and the month padded to two digits (`String(month).padStart(2, '0')`). */
  function MonthKey(year: int, month: int): (r: string)
    ensures 1 <= month <= 12 ==>
              && |r| == |IntToString(year)| + 3
              && r[..|IntToString(year)|] == IntToString(year)
              && r[|r| - 3] == '-'
              && AllDigits(r[|r| - 2..])
              && DigitsValue(r[|r| - 2..]) == month
  {
    MonthKeyFields(year, month);
    IntToString(year) + "-" + PadStart(IntToString(month), 2, '0')
  }

  lemma MonthKeyFields(year: int, month: int)
    ensures var y := IntToString(year);
            var r := y + "-" + PadStart(IntToString(month), 2, '0');
            1 <= month <= 12 ==>
              && |r| == |y| + 3 && r[..|y|] == y && r[|r| - 3] == '-'
              && AllDigits(r[|r| - 2..])
              && DigitsValue(r[|r| - 2..]) == month
  {
    if 1 <= month <= 12 {
      MonthFieldIsPad2(month);
      var y := IntToString(year);
      var m := PadStart(IntToString(month), 2, '0');
      KeyFields(y + "-" + m, y, m, month);
    }
  }

  /** A year text, a dash and a two-digit field reading `month`: where each part sits. */
  lemma KeyFields(r: string, y: string, m: string, month: int)
    requires r == y + "-" + m && |m| == 2 && AllDigits(m) && DigitsValue(m) == month
    ensures |r| == |y| + 3 && r[..|y|] == y && r[|r| - 3] == '-'
    ensures AllDigits(r[|r| - 2..]) && DigitsValue(r[|r| - 2..]) == month
  {
    assert r[..|y|] == y;
    assert r[|r| - 2..] == m;
  }

  lemma MonthFieldIsPad2(month: int)
    requires 1 <= month <= 12
    ensures PadStart(IntToString(month), 2, '0') == Pad2(month)
  {
  }

  /** How the groups are keyed; the grouping is proved for any key that tells months apart. */
  type KeyFn = (int, int) -> string

  ghost predicate InjectiveOnMonths(key: KeyFn) {
    forall y1, m1, y2, m2 :: 1 <= m1 <= 12 && 1 <= m2 <= 12 && key(y1, m1) == key(y2, m2) ==> y1 == y2 && m1 == m2
  }

  lemma SplitAtDash(a1: string, b1: string, a2: string, b2: string)
    requires a1 + "-" + b1 == a2 + "-" + b2 && |b1| == |b2|
    ensures a1 == a2 && b1 == b2
  {
    var k := a1 + "-" + b1;
    assert a1 == k[..|a1|] && a2 == k[..|a2|];
    assert b1 == k[|a1| + 1..] && b2 == k[|a2| + 1..];
  }

  /** Distinct (year, month) pairs get distinct keys. */
  lemma MonthKeyInjective(y1: int, m1: int, y2: int, m2: int)
    requires 1 <= m1 <= 12 && 1 <= m2 <= 12
    requires MonthKey(y1, m1) == MonthKey(y2, m2)
    ensures y1 == y2 && m1 == m2
  {
    MonthFieldIsPad2(m1);
    MonthFieldIsPad2(m2);
    SplitAtDash(IntToString(y1), Pad2(m1), IntToString(y2), Pad2(m2));
    Pad2Injective(m1, m2);
    IntToStringInjective(y1, y2);
  }

  lemma MonthKeyInjectiveOnMonths()
    ensures InjectiveOnMonths(MonthKey)
  {
    forall y1, m1, y2, m2 | 1 <= m1 <= 12 && 1 <= m2 <= 12 && MonthKey(y1, m1) == MonthKey(y2, m2)
      ensures y1 == y2 && m1 == m2
    {
      MonthKeyInjective(y1, m1, y2, m2);
    }
  }

  /** `targetYear`: the year an event is shown under, or `None` when it is dropped. */
  function TargetYear(parsed: Date, isYearly: bool, overdueDays: int, env: Ambient): (r: Option<int>)
    ensures r.None? <==> IsOverdue(parsed, overdueDays, env.now) && !isYearly
    ensures !IsOverdue(parsed, overdueDays, env.now) ==> r == Some(parsed.year)
    ensures IsOverdue(parsed, overdueDays, env.now) && isYearly ==>
              r == Some(env.currentYear) || r == Some(env.currentYear + 1)
  {
    var originallyOverdue := IsOverdue(parsed, overdueDays, env.now);
    if originallyOverdue && isYearly then
      var eventDate := SetFullYear(parsed, env.currentYear);
      Some(if IsOverdue(eventDate, overdueDays, env.now) then env.currentYear + 1 else env.currentYear)
    else if !originallyOverdue then Some(GetYear(parsed))
    else None
  }

  /** The calendar entry one event contributes, if any (one pass of the first loop). */
  function Calendarize(e: Event, overdueDays: int, env: Ambient): (r: Option<CalEvent>)
    ensures r.Some? ==> r.value.event == e && 1 <= r.value.month <= 12 && 1 <= r.value.day <= 31
    ensures r.Some? ==> ParseDateSafe(e.date, env.parse).Some?
  {
    match ParseDateSafe(e.date, env.parse)
    case None => None
    case Some(parsed) =>
      match TargetYear(parsed, e.isYearly, overdueDays, env)
      case None => None
      case Some(year) => Some(CalEvent(e, year, GetMonth(parsed), GetDay(parsed)))
  }

  /** `eventsWithCalendar`: the entries of all events, in input order. */
  function Retained(events: seq<Event>, overdueDays: int, env: Ambient): (r: seq<CalEvent>)
    ensures |r| <= |events|
    ensures forall c :: c in r ==> 1 <= c.month <= 12 && 1 <= c.day <= 31
    ensures forall c :: c in r ==> exists e :: e in events && Calendarize(e, overdueDays, env) == Some(c)
  {
    if events == [] then []
    else
      var init := Retained(events[..|events| - 1], overdueDays, env);
      var last := events[|events| - 1];
      assert forall e :: e in events[..|events| - 1] ==> e in events;
      match Calendarize(last, overdueDays, env)
      case None => init
      case Some(c) =>
        assert last in events;
        init + [c]
  }

  /** Every event with an entry has it among the retained entries. */
  lemma {:induction false} RetainedComplete(events: seq<Event>, overdueDays: int, env: Ambient, e: Event)
    requires e in events && Calendarize(e, overdueDays, env).Some?
    ensures Calendarize(e, overdueDays, env).value in Retained(events, overdueDays, env)
    decreases |events|
  {
    if e != events[|events| - 1] {
      var init := events[..|events| - 1];
      assert e in init by {
        var k :| 0 <= k < |events| && events[k] == e;
        assert init[k] == e;
      }
      RetainedComplete(init, overdueDays, env, e);
    }
  }

  /** An event with an entry contributes that entry once for each time it is listed. */
  lemma {:induction false} RetainedCount(events: seq<Event>, overdueDays: int, env: Ambient, e: Event, c: CalEvent)
    requires Calendarize(e, overdueDays, env) == Some(c)
    ensures multiset(Retained(events, overdueDays, env))[c] == multiset(events)[e]
    decreases |events|
  {
    if events != [] {
      var init := events[..|events| - 1];
      var last := events[|events| - 1];
      assert events == init + [last];
      RetainedCount(init, overdueDays, env, e, c);
      var added := RetainedSnoc(events, overdueDays, env);
      CountStep(init, last, Retained(init, overdueDays, env), added, e, c);
    }
  }

  lemma CountStep(init: seq<Event>, last: Event, r0: seq<CalEvent>, added: seq<CalEvent>, e: Event, c: CalEvent)
    requires multiset(r0)[c] == multiset(init)[e]
    requires last == e ==> added == [c]
    requires last != e ==> added == [] || (|added| == 1 && added[0].event == last && c.event == e)
    ensures multiset(r0 + added)[c] == multiset(init + [last])[e]
  {
    assert multiset(init + [last]) == multiset(init) + multiset{last};
    assert multiset(r0 + added) == multiset(r0) + multiset(added);
  }

  /** The last event adds its entry, if any, at the end. */
  lemma RetainedSnoc(events: seq<Event>, overdueDays: int, env: Ambient) returns (added: seq<CalEvent>)
    requires events != []
    ensures added == match Calendarize(events[|events| - 1], overdueDays, env)
                     case None => []
                     case Some(c) => [c]
    ensures Retained(events, overdueDays, env) == Retained(events[..|events| - 1], overdueDays, env) + added
  {
    added := match Calendarize(events[|events| - 1], overdueDays, env)
             case None => []
             case Some(c) => [c];
    var init := Retained(events[..|events| - 1], overdueDays, env);
    assert init + [] == init;
  }

  /** The entries of `cal` shown under `year`-`month`, in their order in `cal`. */
  function InMonth(cal: seq<CalEvent>, year: int, month: int): (r: seq<CalEvent>)
    ensures forall c :: c in r <==> c in cal && c.year == year && c.month == month
    ensures |r| <= |cal|
  {
    if cal == [] then []
    else
      var init := cal[..|cal| - 1];
      var last := cal[|cal| - 1];
      assert cal == init + [last];
      InMonth(init, year, month) + (if last.year == year && last.month == month then [last] else [])
  }

  lemma InMonthSnoc(cal: seq<CalEvent>, c: CalEvent, year: int, month: int)
    ensures InMonth(cal + [c], year, month)
         == InMonth(cal, year, month) + (if c.year == year && c.month == month then [c] else [])
  {
    assert (cal + [c])[..|cal|] == cal;
  }

  lemma InMonthNone(cal: seq<CalEvent>, year: int, month: int)
    requires forall c :: c in cal ==> !(c.year == year && c.month == month)
    ensures InMonth(cal, year, month) == []
  {
    if cal != [] {
      InMonthNone(cal[..|cal| - 1], year, month);
    }
  }

  /** The rank `a.day - b.day` sorts items by. */
  function ByDay(c: CalEvent): int {
    c.day
  }

  /** Rank of a group's month, for months 1..12. */
  function YearMonthRank(g: MonthGroup): int {
    g.year * 12 + g.month - 1
  }

  predicate MonthBefore(a: MonthGroup, b: MonthGroup) {
    a.year < b.year || (a.year == b.year && a.month < b.month)
  }

  /** The comparator of `sortingEventsByYearMonth`. */
  function CompareYearMonth(a: MonthGroup, b: MonthGroup): (r: int)
    ensures r < 0 <==> MonthBefore(a, b)
    ensures r > 0 <==> MonthBefore(b, a)
    ensures r == 0 <==> a.year == b.year && a.month == b.month
  {
    if a.year != b.year then a.year - b.year
    else if a.month != b.month then a.month - b.month
    else 0
  }

  /** For months 1..12 the comparator orders groups exactly as their ranks do. */
  lemma CompareYearMonthAgreesWithRank(a: MonthGroup, b: MonthGroup)
    requires 1 <= a.month <= 12 && 1 <= b.month <= 12
    ensures CompareYearMonth(a, b) < 0 <==> YearMonthRank(a) < YearMonthRank(b)
    ensures CompareYearMonth(a, b) == 0 <==> YearMonthRank(a) == YearMonthRank(b)
    ensures CompareYearMonth(a, b) < 0 <==> MonthBefore(a, b)
    ensures YearMonthRank(a) == YearMonthRank(b) <==> (a.year == b.year && a.month == b.month)
  {
  }

  lemma RankOrderIsMonthOrder(groups: seq<MonthGroup>, r: seq<MonthGroup>)
    requires forall g :: g in groups ==> 1 <= g.month <= 12
    requires multiset(r) == multiset(groups) && SortedBy(r, YearMonthRank)
    ensures forall i, j :: 0 <= i < j < |r| ==> !MonthBefore(r[j], r[i])
  {
    forall i, j | 0 <= i < j < |r| ensures !MonthBefore(r[j], r[i]) {
      assert r[i] in multiset(groups) && r[j] in multiset(groups);
      CompareYearMonthAgreesWithRank(r[j], r[i]);
    }
  }

  /**
   * `sortingEventsByYearMonth`: a sorted copy by (year, month), holding the same
   * groups. Every group it is given has a month in 1..12 (`getMonth() + 1`),
   * where sorting by `YearMonthRank` is sorting with the comparator.
   */
  function SortingEventsByYearMonth(groups: seq<MonthGroup>): (r: seq<MonthGroup>)
    requires forall g :: g in groups ==> 1 <= g.month <= 12
    ensures multiset(r) == multiset(groups) && |r| == |groups|
    ensures forall i, j :: 0 <= i < j < |r| ==> !MonthBefore(r[j], r[i])
  {
    var r := SortBy(groups, YearMonthRank);
    RankOrderIsMonthOrder(groups, r);
    r
  }

  ghost predicate WellFormedGroup(g: MonthGroup, key: KeyFn, monthLabel: MonthLabel) {
    && 1 <= g.month <= 12
    && g.key == key(g.year, g.month)
    && g.labelText == monthLabel(g.year, g.month)
  }

  /**
   * `groups` hold `cal` by month: every group is well formed, non-empty and holds
   * exactly the entries of its month sorted by day, and every entry has a group.
   */
  ghost predicate GroupsCover(groups: seq<MonthGroup>, cal: seq<CalEvent>, key: KeyFn, monthLabel: MonthLabel) {
    && (forall i :: 0 <= i < |groups| ==>
          && WellFormedGroup(groups[i], key, monthLabel)
          && groups[i].items != []
          && groups[i].items == SortBy(InMonth(cal, groups[i].year, groups[i].month), ByDay))
    && (forall c :: c in cal ==>
          exists i :: 0 <= i < |groups| && groups[i].year == c.year && groups[i].month == c.month)
  }

  /** The result of `groupEventsByMonth` for entries `cal`: covering groups in ascending (year, month). */
  ghost predicate IsMonthGrouping(groups: seq<MonthGroup>, cal: seq<CalEvent>, key: KeyFn, monthLabel: MonthLabel) {
    && GroupsCover(groups, cal, key, monthLabel)
    && (forall i, j :: 0 <= i < j < |groups| ==> MonthBefore(groups[i], groups[j]))
  }

  /** Every group in `groupsMap` sits under its own key and holds, in order, the entries of `done` of its month. */
  ghost predicate GroupsMatch(groupsMap: map<string, MonthGroup>, done: seq<CalEvent>, key: KeyFn, monthLabel: MonthLabel) {
    forall k :: k in groupsMap ==>
      && WellFormedGroup(groupsMap[k], key, monthLabel)
      && groupsMap[k].key == k
      && groupsMap[k].items != []
      && groupsMap[k].items == InMonth(done, groupsMap[k].year, groupsMap[k].month)
  }

  /** Every entry of `done` has its month's key in `groupsMap`. */
  ghost predicate EntriesKeyed(groupsMap: map<string, MonthGroup>, done: seq<CalEvent>, key: KeyFn) {
    forall c :: c in done ==> 1 <= c.month <= 12 && key(c.year, c.month) in groupsMap
  }

  /** `order` lists the keys of `m`, each once, as a JavaScript `Map` keeps them. */
  ghost predicate InsertionOrder<K, V>(m: map<K, V>, order: seq<K>) {
    && (forall j :: 0 <= j < |order| ==> order[j] in m)
    && (forall k :: k in m ==> k in order)
    && (forall i, j :: 0 <= i < j < |order| ==> order[i] != order[j])
  }

  /** The state of `groupsMap` (and its list of keys) after the entries `done`. */
  ghost predicate Accumulated(groupsMap: map<string, MonthGroup>, order: seq<string>, done: seq<CalEvent>,
                              key: KeyFn, monthLabel: MonthLabel)
  {
    GroupsMatch(groupsMap, done, key, monthLabel) && EntriesKeyed(groupsMap, done, key) && InsertionOrder(groupsMap, order)
  }

  lemma InsertionOrderNew<K, V>(m: map<K, V>, order: seq<K>, k: K, v: V)
    requires InsertionOrder(m, order) && k !in m
    ensures InsertionOrder(m[k := v], order + [k])
  {
    forall k' | k' in m[k := v] ensures k' in order + [k] {
      if k' != k {
        assert k' in order;
      }
    }
  }

  lemma InsertionOrderUpdate<K, V>(m: map<K, V>, order: seq<K>, k: K, v: V)
    requires InsertionOrder(m, order) && k in m
    ensures InsertionOrder(m[k := v], order)
  {
  }

  lemma EntriesKeyedSnoc(groupsMap: map<string, MonthGroup>, done: seq<CalEvent>, key: KeyFn, c: CalEvent,
                         k: string, g: MonthGroup)
    requires EntriesKeyed(groupsMap, done, key)
    requires 1 <= c.month <= 12 && k == key(c.year, c.month)
    ensures EntriesKeyed(groupsMap[k := g], done + [c], key)
  {
    forall x | x in done + [c] ensures 1 <= x.month <= 12 && key(x.year, x.month) in groupsMap[k := g] {
      if x != c {
        assert x in done;
      }
    }
  }

  lemma AccumulateIntoExisting(groupsMap: map<string, MonthGroup>, order: seq<string>, done: seq<CalEvent>,
                               key: KeyFn, monthLabel: MonthLabel, c: CalEvent)
    requires InjectiveOnMonths(key) && Accumulated(groupsMap, order, done, key, monthLabel)
    requires 1 <= c.month <= 12 && key(c.year, c.month) in groupsMap
    ensures var k := key(c.year, c.month);
            var group := groupsMap[k];
            Accumulated(groupsMap[k := group.(items := group.items + [c])], order, done + [c], key, monthLabel)
  {
    var ck := key(c.year, c.month);
    var group := groupsMap[ck];
    var m' := groupsMap[ck := group.(items := group.items + [c])];
    forall k | k in m'
      ensures WellFormedGroup(m'[k], key, monthLabel) && m'[k].key == k && m'[k].items != []
      ensures m'[k].items == InMonth(done + [c], m'[k].year, m'[k].month)
    {
      InMonthSnoc(done, c, m'[k].year, m'[k].month);
    }
    EntriesKeyedSnoc(groupsMap, done, key, c, ck, group.(items := group.items + [c]));
    InsertionOrderUpdate(groupsMap, order, ck, group.(items := group.items + [c]));
  }

  lemma AccumulateIntoNew(groupsMap: map<string, MonthGroup>, order: seq<string>, done: seq<CalEvent>,
                          key: KeyFn, monthLabel: MonthLabel, c: CalEvent)
    requires Accumulated(groupsMap, order, done, key, monthLabel)
    requires 1 <= c.month <= 12 && key(c.year, c.month) !in groupsMap
    ensures var k := key(c.year, c.month);
            Accumulated(groupsMap[k := MonthGroup(c.year, c.month, k, monthLabel(c.year, c.month), [c])],
                        order + [k], done + [c], key, monthLabel)
  {
    var ck := key(c.year, c.month);
    var g := MonthGroup(c.year, c.month, ck, monthLabel(c.year, c.month), [c]);
    var m' := groupsMap[ck := g];
    forall x | x in done ensures !(x.year == c.year && x.month == c.month) {
      assert key(x.year, x.month) in groupsMap;
    }
    InMonthNone(done, c.year, c.month);
    forall k | k in m'
      ensures WellFormedGroup(m'[k], key, monthLabel) && m'[k].key == k && m'[k].items != []
      ensures m'[k].items == InMonth(done + [c], m'[k].year, m'[k].month)
    {
      InMonthSnoc(done, c, m'[k].year, m'[k].month);
      if k != ck {
        assert key(groupsMap[k].year, groupsMap[k].month) == k;
      }
    }
    EntriesKeyedSnoc(groupsMap, done, key, c, ck, g);
    InsertionOrderNew(groupsMap, order, ck, g);
  }

  /** The groups of a finished map, in key insertion order (`Array.from(groupsMap.values())`). */
  lemma MapValuesCover(groupsMap: map<string, MonthGroup>, order: seq<string>, cal: seq<CalEvent>,
                       key: KeyFn, monthLabel: MonthLabel, values: seq<MonthGroup>)
    requires InjectiveOnMonths(key) && Accumulated(groupsMap, order, cal, key, monthLabel)
    requires |values| == |order| && forall j :: 0 <= j < |order| ==> values[j] == groupsMap[order[j]]
    ensures forall j :: 0 <= j < |values| ==>
              WellFormedGroup(values[j], key, monthLabel) && values[j].items != []
              && values[j].items == InMonth(cal, values[j].year, values[j].month)
    ensures forall c :: c in cal ==>
              exists j :: 0 <= j < |values| && values[j].year == c.year && values[j].month == c.month
    ensures DistinctRanks(values, YearMonthRank)
  {
    forall c | c in cal
      ensures exists j :: 0 <= j < |values| && values[j].year == c.year && values[j].month == c.month
    {
      var ck := key(c.year, c.month);
      var j :| 0 <= j < |order| && order[j] == ck;
      assert key(values[j].year, values[j].month) == ck;
    }
    forall i, j | 0 <= i < j < |values|
      ensures YearMonthRank(values[i]) != YearMonthRank(values[j])
    {
      CompareYearMonthAgreesWithRank(values[i], values[j]);
    }
  }

  /** Sorting the groups by (year, month) turns covering groups with distinct months into a grouping. */
  lemma SortedGroupsAreGrouping(groups: seq<MonthGroup>, cal: seq<CalEvent>, key: KeyFn, monthLabel: MonthLabel)
    requires GroupsCover(groups, cal, key, monthLabel)
    requires DistinctRanks(groups, YearMonthRank)
    ensures IsMonthGrouping(SortingEventsByYearMonth(groups), cal, key, monthLabel)
  {
    var r := SortingEventsByYearMonth(groups);
    assert forall g :: g in r <==> g in groups by {
      assert forall g :: g in r <==> g in multiset(r);
      assert forall g :: g in groups <==> g in multiset(groups);
    }
    forall i | 0 <= i < |r|
      ensures WellFormedGroup(r[i], key, monthLabel) && r[i].items != []
      ensures r[i].items == SortBy(InMonth(cal, r[i].year, r[i].month), ByDay)
    {
      assert r[i] in groups;
    }
    forall c | c in cal
      ensures exists i :: 0 <= i < |r| && r[i].year == c.year && r[i].month == c.month
    {
      var j :| 0 <= j < |groups| && groups[j].year == c.year && groups[j].month == c.month;
      assert groups[j] in r;
    }
    assert GroupsCover(r, cal, key, monthLabel);
    assert SortBy(groups, YearMonthRank) == r;
    SortByStrict(groups, YearMonthRank);
    forall i, j | 0 <= i < j < |r| ensures MonthBefore(r[i], r[j]) {
      assert r[i] in groups && r[j] in groups;
      CompareYearMonthAgreesWithRank(r[i], r[j]);
    }
  }

  /** Sorting each group's items keeps the groups covering the same entries. */
  lemma SortedItemsCover(unsorted: seq<MonthGroup>, sorted: seq<MonthGroup>, cal: seq<CalEvent>,
                         key: KeyFn, monthLabel: MonthLabel)
    requires forall j :: 0 <= j < |unsorted| ==>
               WellFormedGroup(unsorted[j], key, monthLabel) && unsorted[j].items != []
               && unsorted[j].items == InMonth(cal, unsorted[j].year, unsorted[j].month)
    requires forall c :: c in cal ==>
               exists j :: 0 <= j < |unsorted| && unsorted[j].year == c.year && unsorted[j].month == c.month
    requires DistinctRanks(unsorted, YearMonthRank)
    requires |sorted| == |unsorted|
    requires forall j :: 0 <= j < |unsorted| ==> sorted[j] == unsorted[j].(items := SortBy(unsorted[j].items, ByDay))
    ensures GroupsCover(sorted, cal, key, monthLabel) && DistinctRanks(sorted, YearMonthRank)
  {
    forall j | 0 <= j < |sorted|
      ensures WellFormedGroup(sorted[j], key, monthLabel) && sorted[j].items != []
      ensures sorted[j].items == SortBy(InMonth(cal, sorted[j].year, sorted[j].month), ByDay)
    {
      assert |sorted[j].items| == |unsorted[j].items| > 0;
    }
    forall c | c in cal
      ensures exists j :: 0 <= j < |sorted| && sorted[j].year == c.year && sorted[j].month == c.month
    {
      var j :| 0 <= j < |unsorted| && unsorted[j].year == c.year && unsorted[j].month == c.month;
      assert sorted[j].year == c.year && sorted[j].month == c.month;
    }
    forall i, j | 0 <= i < j < |sorted| ensures YearMonthRank(sorted[i]) != YearMonthRank(sorted[j]) {
      assert YearMonthRank(sorted[i]) == YearMonthRank(unsorted[i]);
      assert YearMonthRank(sorted[j]) == YearMonthRank(unsorted[j]);
    }
  }

  /** One pass of the first loop: the entry `event` contributes, or `None` when it is skipped. */
  method ClassifyEvent(event: Event, overdueDays: int, env: Ambient) returns (entry: Option<CalEvent>)
    ensures entry == Calendarize(event, overdueDays, env)
  {
    var parsed := ParseDateSafe(event.date, env.parse);
    if parsed.None? {
      return None;
    }
    var targetYear := TargetYear(parsed.value, event.isYearly, overdueDays, env);
    entry := None;
    if targetYear.Some? {
      entry := Some(CalEvent(event, targetYear.value, GetMonth(parsed.value), GetDay(parsed.value)));
    }
  }

  /** First pass of `groupEventsByMonth`: the calendar entries of the events that are kept. */
  method CalendarizeEvents(events: seq<Event>, overdueDays: int, env: Ambient)
    returns (eventsWithCalendar: seq<CalEvent>)
    ensures eventsWithCalendar == Retained(events, overdueDays, env)
  {
    eventsWithCalendar := [];
    for i := 0 to |events|
      invariant eventsWithCalendar == Retained(events[..i], overdueDays, env)
    {
      assert events[..i + 1][..i] == events[..i];
      var entry := ClassifyEvent(events[i], overdueDays, env);
      if entry.Some? {
        eventsWithCalendar := eventsWithCalendar + [entry.value];
      }
    }
    assert events[..|events|] == events;
  }

  /**
   * Second pass: one group per month key, created on the month's first entry
   * and appended to afterwards.
   */
  method CollectMonthGroups(cal: seq<CalEvent>, monthLabel: MonthLabel)
    returns (groups: seq<MonthGroup>)
    requires forall c :: c in cal ==> 1 <= c.month <= 12
    ensures forall j :: 0 <= j < |groups| ==>
              WellFormedGroup(groups[j], MonthKey, monthLabel) && groups[j].items != []
              && groups[j].items == InMonth(cal, groups[j].year, groups[j].month)
    ensures forall c :: c in cal ==>
              exists j :: 0 <= j < |groups| && groups[j].year == c.year && groups[j].month == c.month
    ensures DistinctRanks(groups, YearMonthRank)
  {
    MonthKeyInjectiveOnMonths();
    var groupsMap: map<string, MonthGroup> := map[];
    var order: seq<string> := [];
    for i := 0 to |cal|
      invariant Accumulated(groupsMap, order, cal[..i], MonthKey, monthLabel)
    {
      assert cal[..i + 1] == cal[..i] + [cal[i]];
      var event := cal[i];
      assert event in cal;
      var key := MonthKey(event.year, event.month);
      if key !in groupsMap {
        AccumulateIntoNew(groupsMap, order, cal[..i], MonthKey, monthLabel, event);
        groupsMap := groupsMap[key := MonthGroup(event.year, event.month, key,
                                                 monthLabel(event.year, event.month), [event])];
        order := order + [key];
      } else {
        AccumulateIntoExisting(groupsMap, order, cal[..i], MonthKey, monthLabel, event);
        var group := groupsMap[key];
        groupsMap := groupsMap[key := group.(items := group.items + [event])];
      }
    }
    assert cal[..|cal|] == cal;
    groups := seq(|order|, j requires 0 <= j < |order| => groupsMap[order[j]]);
    MapValuesCover(groupsMap, order, cal, MonthKey, monthLabel, groups);
  }

  /** Third pass: each group's items sorted by day of month, stably. */
  method SortGroupItems(groups: seq<MonthGroup>) returns (sorted: seq<MonthGroup>)
    ensures |sorted| == |groups|
    ensures forall j :: 0 <= j < |groups| ==> sorted[j] == groups[j].(items := SortBy(groups[j].items, ByDay))
  {
    sorted := groups;
    for k := 0 to |sorted|
      invariant |sorted| == |groups|
      invariant forall j :: 0 <= j < |groups| ==>
                  sorted[j] == if j < k then groups[j].(items := SortBy(groups[j].items, ByDay)) else groups[j]
    {
      sorted := sorted[k := sorted[k].(items := SortBy(sorted[k].items, ByDay))];
    }
  }

  /**
   * `groupEventsByMonth`, with the clock and the date parser passed in: the
   * result is the month grouping, keyed by `monthKey`, of the retained entries.
   */
  method GroupEventsByMonth(events: seq<Event>, options: Option<GroupOptions>, env: Ambient,
                            monthLabel: MonthLabel)
    returns (sortedEvents: seq<MonthGroup>)
    ensures IsMonthGrouping(sortedEvents, Retained(events, OverdueDaysOf(options), env), MonthKey, monthLabel)
  {
    var overdueDays := OverdueDaysOf(options);
    var cal := CalendarizeEvents(events, overdueDays, env);
    var unsorted := CollectMonthGroups(cal, monthLabel);
    var resultArr := SortGroupItems(unsorted);
    SortedItemsCover(unsorted, resultArr, cal, MonthKey, monthLabel);
    SortedGroupsAreGrouping(resultArr, cal, MonthKey, monthLabel);
    sortedEvents := SortingEventsByYearMonth(resultArr);
  }

  /** `useGroupedEvents`: `[]` for no events, otherwise `groupEventsByMonth` with the default of 4 days. */
  method UseGroupedEvents(events: seq<Event>, options: Option<GroupOptions>, env: Ambient, monthLabel: MonthLabel)
    returns (groups: seq<MonthGroup>)
    ensures events == [] ==> groups == []
    ensures IsMonthGrouping(groups, Retained(events, OverdueDaysOf(options), env), MonthKey, monthLabel)
  {
    var overdueDays := OverdueDaysOf(options);
    if |events| == 0 {
      return [];
    }
    groups := GroupEventsByMonth(events, Some(GroupOptions(Some(overdueDays))), env, monthLabel);
  }
}

=== FILE: grouping_properties.dfy ===
/**
 * What a month grouping guarantees about the events it was built from:
 * where each event ends up, that the groups partition the entries, and that
 * the grouping of a list of entries is unique.
 */
module GroupingProperties {
  import opened Wrappers
  import opened JsDate
  import opened DateUtils
  import opened EventTypes
  import opened StableSort
  import opened GroupedEvents

  /** A group holds exactly the entries of its month. */
  lemma GroupHoldsItsMonth(groups: seq<MonthGroup>, cal: seq<CalEvent>, key: KeyFn, monthLabel: MonthLabel,
                           i: int, c: CalEvent)
    requires IsMonthGrouping(groups, cal, key, monthLabel) && 0 <= i < |groups|
    ensures c in groups[i].items <==> c in cal && c.year == groups[i].year && c.month == groups[i].month
  {
    var inMonth := InMonth(cal, groups[i].year, groups[i].month);
    assert multiset(groups[i].items) == multiset(inMonth);
    assert c in groups[i].items <==> c in multiset(groups[i].items);
    assert c in inMonth <==> c in multiset(inMonth);
  }

  /** Every entry is in exactly one group. */
  lemma EntryInExactlyOneGroup(groups: seq<MonthGroup>, cal: seq<CalEvent>, key: KeyFn, monthLabel: MonthLabel,
                               c: CalEvent)
    requires IsMonthGrouping(groups, cal, key, monthLabel) && c in cal
    ensures exists i :: 0 <= i < |groups| && c in groups[i].items
    ensures forall i, j :: 0 <= i < |groups| && 0 <= j < |groups| && c in groups[i].items && c in groups[j].items
              ==> i == j
  {
    var i :| 0 <= i < |groups| && groups[i].year == c.year && groups[i].month == c.month;
    GroupHoldsItsMonth(groups, cal, key, monthLabel, i, c);
    forall i1, j1 | 0 <= i1 < |groups| && 0 <= j1 < |groups| && c in groups[i1].items && c in groups[j1].items
      ensures i1 == j1
    {
      GroupHoldsItsMonth(groups, cal, key, monthLabel, i1, c);
      GroupHoldsItsMonth(groups, cal, key, monthLabel, j1, c);
    }
  }

  /** No two groups share a key, so the `Map` held one group per key. */
  lemma GroupKeysDistinct(groups: seq<MonthGroup>, cal: seq<CalEvent>, key: KeyFn, monthLabel: MonthLabel)
    requires IsMonthGrouping(groups, cal, key, monthLabel) && InjectiveOnMonths(key)
    ensures forall i, j :: 0 <= i < j < |groups| ==> groups[i].key != groups[j].key
  {
    forall i, j | 0 <= i < j < |groups| ensures groups[i].key != groups[j].key {
      assert MonthBefore(groups[i], groups[j]);
      assert WellFormedGroup(groups[i], key, monthLabel) && WellFormedGroup(groups[j], key, monthLabel);
    }
  }

  /**
   * Within a group the items ascend by day of month, and entries on the same
   * day keep the order they had in `cal` (the sort is stable).
   */
  lemma GroupItemsByDay(groups: seq<MonthGroup>, cal: seq<CalEvent>, key: KeyFn, monthLabel: MonthLabel,
                        i: int, day: int)
    requires IsMonthGrouping(groups, cal, key, monthLabel) && 0 <= i < |groups|
    ensures SortedBy(groups[i].items, ByDay)
    ensures WithRank(groups[i].items, ByDay, day) == WithRank(InMonth(cal, groups[i].year, groups[i].month), ByDay, day)
  {
    SortByIsStable(InMonth(cal, groups[i].year, groups[i].month), ByDay, day);
  }

  /* ---------------- partition ---------------- */

  /** All items of all groups, group after group (what a list view renders). */
  function AllItems(groups: seq<MonthGroup>): seq<CalEvent> {
    if groups == [] then [] else groups[0].items + AllItems(groups[1..])
  }

  function MonthsOf(groups: seq<MonthGroup>): (r: seq<(int, int)>)
    ensures |r| == |groups|
    ensures forall i :: 0 <= i < |groups| ==> r[i] == (groups[i].year, groups[i].month)
  {
    seq(|groups|, i requires 0 <= i < |groups| => (groups[i].year, groups[i].month))
  }

  ghost predicate Distinct<T>(s: seq<T>) {
    forall i, j :: 0 <= i < j < |s| ==> s[i] != s[j]
  }

  /** The entries of `cal` month after month, for the listed months. */
  function Gather(cal: seq<CalEvent>, months: seq<(int, int)>): seq<CalEvent> {
    if months == [] then [] else InMonth(cal, months[0].0, months[0].1) + Gather(cal, months[1..])
  }

  lemma {:induction false} AllItemsGather(groups: seq<MonthGroup>, cal: seq<CalEvent>)
    requires forall i :: 0 <= i < |groups| ==>
               multiset(groups[i].items) == multiset(InMonth(cal, groups[i].year, groups[i].month))
    ensures multiset(AllItems(groups)) == multiset(Gather(cal, MonthsOf(groups)))
    decreases |groups|
  {
    if groups != [] {
      assert MonthsOf(groups)[1..] == MonthsOf(groups[1..]);
      AllItemsGather(groups[1..], cal);
    }
  }

  lemma {:induction false} GatherEmpty(months: seq<(int, int)>)
    ensures Gather([], months) == []
    decreases |months|
  {
    if months != [] {
      GatherEmpty(months[1..]);
    }
  }

  lemma DistinctTail<T>(s: seq<T>, x: T)
    requires Distinct(s) && s != []
    ensures Distinct(s[1..])
    ensures x in s <==> x == s[0] || x in s[1..]
    ensures !(x == s[0] && x in s[1..])
  {
  }

  lemma ConcatGrows<T>(a: seq<T>, a': seq<T>, b: seq<T>, b': seq<T>, x: multiset<T>, y: multiset<T>)
    requires multiset(a') == multiset(a) + x && multiset(b') == multiset(b) + y
    ensures multiset(a' + b') == multiset(a + b) + x + y
  {
  }

  /** An entry whose month is not listed adds nothing to the gathered entries. */
  lemma {:induction false} GatherSnocUnlisted(cal: seq<CalEvent>, c: CalEvent, months: seq<(int, int)>)
    requires (c.year, c.month) !in months
    ensures Gather(cal + [c], months) == Gather(cal, months)
    decreases |months|
  {
    if months != [] {
      InMonthSnoc(cal, c, months[0].0, months[0].1);
      GatherSnocUnlisted(cal, c, months[1..]);
    }
  }

  /** An entry whose month is listed once is gathered once more. */
  lemma {:induction false} GatherSnocListed(cal: seq<CalEvent>, c: CalEvent, months: seq<(int, int)>)
    requires Distinct(months) && (c.year, c.month) in months
    ensures multiset(Gather(cal + [c], months)) == multiset(Gather(cal, months)) + multiset{c}
    decreases |months|
  {
    var m := months[0];
    var rest := months[1..];
    InMonthSnoc(cal, c, m.0, m.1);
    DistinctTail(months, (c.year, c.month));
    if (c.year, c.month) == m {
      GatherSnocUnlisted(cal, c, rest);
      ConcatGrows(InMonth(cal, m.0, m.1), InMonth(cal + [c], m.0, m.1), Gather(cal, rest), Gather(cal + [c], rest),
                  multiset{c}, multiset{});
    } else {
      GatherSnocListed(cal, c, rest);
      ConcatGrows(InMonth(cal, m.0, m.1), InMonth(cal + [c], m.0, m.1), Gather(cal, rest), Gather(cal + [c], rest),
                  multiset{}, multiset{c});
    }
  }

  lemma {:induction false} GatherCovers(cal: seq<CalEvent>, months: seq<(int, int)>)
    requires Distinct(months)
    requires forall c :: c in cal ==> (c.year, c.month) in months
    ensures multiset(Gather(cal, months)) == multiset(cal)
    decreases |cal|
  {
    if cal == [] {
      GatherEmpty(months);
    } else {
      var init := cal[..|cal| - 1];
      var last := cal[|cal| - 1];
      assert cal == init + [last];
      assert forall c :: c in init ==> c in cal;
      GatherCovers(init, months);
      GatherSnocListed(init, last, months);
    }
  }

  /** The groups partition the entries: together they hold each entry exactly as often as `cal` does. */
  lemma GroupsPartitionEntries(groups: seq<MonthGroup>, cal: seq<CalEvent>, key: KeyFn, monthLabel: MonthLabel)
    requires IsMonthGrouping(groups, cal, key, monthLabel)
    ensures multiset(AllItems(groups)) == multiset(cal)
    ensures |AllItems(groups)| == |cal|
  {
    AllItemsGather(groups, cal);
    var months := MonthsOf(groups);
    forall i, j | 0 <= i < j < |months| ensures months[i] != months[j] {
      assert MonthBefore(groups[i], groups[j]);
    }
    forall c | c in cal ensures (c.year, c.month) in months {
      var i :| 0 <= i < |groups| && groups[i].year == c.year && groups[i].month == c.month;
      assert months[i] == (c.year, c.month);
    }
    GatherCovers(cal, months);
    assert |AllItems(groups)| == |multiset(AllItems(groups))|;
  }

  /* ---------------- uniqueness ---------------- */

  ghost predicate Increasing(s: seq<int>) {
    forall i, j :: 0 <= i < j < |s| ==> s[i] < s[j]
  }

  function Ranks(groups: seq<MonthGroup>): (r: seq<int>)
    ensures |r| == |groups|
    ensures forall i :: 0 <= i < |groups| ==> r[i] == YearMonthRank(groups[i])
  {
    seq(|groups|, i requires 0 <= i < |groups| => YearMonthRank(groups[i]))
  }

  /** Two increasing sequences with the same elements are equal. */
  lemma {:induction false} IncreasingSameElements(a: seq<int>, b: seq<int>)
    requires Increasing(a) && Increasing(b)
    requires forall x :: x in a <==> x in b
    ensures a == b
    decreases |a|
  {
    assert a != [] ==> a[0] in a && a[0] in b;
    assert b != [] ==> b[0] in b && b[0] in a;
    if a != [] && b != [] {
      assert a[0] == b[0];
      forall x ensures x in a[1..] <==> x in b[1..] {
        if x in a[1..] {
          var k :| 1 <= k < |a| && a[k] == x;
          assert x != a[0];
          assert x in b;
        }
        if x in b[1..] {
          var k :| 1 <= k < |b| && b[k] == x;
          assert x != b[0];
          assert x in a;
        }
      }
      IncreasingSameElements(a[1..], b[1..]);
      assert a == [a[0]] + a[1..] && b == [b[0]] + b[1..];
    }
  }

  lemma GroupingRanksIncrease(groups: seq<MonthGroup>, cal: seq<CalEvent>, key: KeyFn, monthLabel: MonthLabel)
    requires IsMonthGrouping(groups, cal, key, monthLabel)
    ensures Increasing(Ranks(groups))
  {
    forall i, j | 0 <= i < j < |groups| ensures YearMonthRank(groups[i]) < YearMonthRank(groups[j]) {
      assert MonthBefore(groups[i], groups[j]);
      CompareYearMonthAgreesWithRank(groups[i], groups[j]);
    }
  }

  /** Each month with a group in one grouping of `cal` has a group in any other. */
  lemma RanksIncluded(g1: seq<MonthGroup>, g2: seq<MonthGroup>, cal: seq<CalEvent>, key: KeyFn,
                      monthLabel: MonthLabel)
    requires IsMonthGrouping(g1, cal, key, monthLabel) && IsMonthGrouping(g2, cal, key, monthLabel)
    ensures forall x :: x in Ranks(g1) ==> x in Ranks(g2)
  {
    forall x | x in Ranks(g1) ensures x in Ranks(g2) {
      var i :| 0 <= i < |g1| && Ranks(g1)[i] == x;
      var c := g1[i].items[0];
      GroupHoldsItsMonth(g1, cal, key, monthLabel, i, c);
      var j :| 0 <= j < |g2| && g2[j].year == c.year && g2[j].month == c.month;
      assert Ranks(g2)[j] == x;
    }
  }

  /** The grouping of a list of entries is unique: the result depends on nothing but the entries. */
  lemma GroupingIsUnique(g1: seq<MonthGroup>, g2: seq<MonthGroup>, cal: seq<CalEvent>, key: KeyFn,
                         monthLabel: MonthLabel)
    requires IsMonthGrouping(g1, cal, key, monthLabel) && IsMonthGrouping(g2, cal, key, monthLabel)
    ensures g1 == g2
  {
    GroupingRanksIncrease(g1, cal, key, monthLabel);
    GroupingRanksIncrease(g2, cal, key, monthLabel);
    RanksIncluded(g1, g2, cal, key, monthLabel);
    RanksIncluded(g2, g1, cal, key, monthLabel);
    IncreasingSameElements(Ranks(g1), Ranks(g2));
    forall i | 0 <= i < |g1| ensures g1[i] == g2[i] {
      assert Ranks(g1)[i] == Ranks(g2)[i];
      CompareYearMonthAgreesWithRank(g1[i], g2[i]);
    }
  }

  /* ---------------- where each event goes ---------------- */

  /** An item of the grouping of `events` is the entry of an input event. */
  lemma GroupedItemOrigin(groups: seq<MonthGroup>, events: seq<Event>, overdueDays: int, env: Ambient,
                          key: KeyFn, monthLabel: MonthLabel, i: int, c: CalEvent)
    requires IsMonthGrouping(groups, Retained(events, overdueDays, env), key, monthLabel)
    requires 0 <= i < |groups| && c in groups[i].items
    ensures c.event in events && Calendarize(c.event, overdueDays, env) == Some(c)
  {
    GroupHoldsItsMonth(groups, Retained(events, overdueDays, env), key, monthLabel, i, c);
  }

  /** An event with an entry is shown as that entry, in the group of its month, and as no other entry. */
  lemma EventPlacement(groups: seq<MonthGroup>, events: seq<Event>, overdueDays: int, env: Ambient,
                       key: KeyFn, monthLabel: MonthLabel, e: Event, c: CalEvent)
    requires IsMonthGrouping(groups, Retained(events, overdueDays, env), key, monthLabel)
    requires e in events && Calendarize(e, overdueDays, env) == Some(c)
    ensures exists i :: 0 <= i < |groups| && c in groups[i].items && groups[i].year == c.year && groups[i].month == c.month
    ensures forall i, c' :: 0 <= i < |groups| && c' in groups[i].items && c'.event == e ==> c' == c
  {
    var cal := Retained(events, overdueDays, env);
    RetainedComplete(events, overdueDays, env, e);
    var i :| 0 <= i < |groups| && groups[i].year == c.year && groups[i].month == c.month;
    GroupHoldsItsMonth(groups, cal, key, monthLabel, i, c);
    forall i', c' | 0 <= i' < |groups| && c' in groups[i'].items && c'.event == e ensures c' == c {
      GroupedItemOrigin(groups, events, overdueDays, env, key, monthLabel, i', c');
    }
  }

  /** An event with an entry is shown as that entry exactly as many times as `events` lists it. */
  lemma EventShownAsOftenAsListed(groups: seq<MonthGroup>, events: seq<Event>, overdueDays: int, env: Ambient,
                                  key: KeyFn, monthLabel: MonthLabel, e: Event, c: CalEvent)
    requires IsMonthGrouping(groups, Retained(events, overdueDays, env), key, monthLabel)
    requires Calendarize(e, overdueDays, env) == Some(c)
    ensures multiset(AllItems(groups))[c] == multiset(events)[e]
  {
    GroupsPartitionEntries(groups, Retained(events, overdueDays, env), key, monthLabel);
    RetainedCount(events, overdueDays, env, e, c);
  }

  /** An event without an entry is in no group. */
  lemma DroppedEventInNoGroup(groups: seq<MonthGroup>, events: seq<Event>, overdueDays: int, env: Ambient,
                              key: KeyFn, monthLabel: MonthLabel, e: Event)
    requires IsMonthGrouping(groups, Retained(events, overdueDays, env), key, monthLabel)
    requires Calendarize(e, overdueDays, env).None?
    ensures forall i, c :: 0 <= i < |groups| && c in groups[i].items ==> c.event != e
  {
    forall i, c | 0 <= i < |groups| && c in groups[i].items ensures c.event != e {
      GroupedItemOrigin(groups, events, overdueDays, env, key, monthLabel, i, c);
    }
  }

  /** An event whose date does not parse is in no group. */
  lemma UnparseableEventInNoGroup(groups: seq<MonthGroup>, events: seq<Event>, overdueDays: int, env: Ambient,
                                  key: KeyFn, monthLabel: MonthLabel, e: Event)
    requires IsMonthGrouping(groups, Retained(events, overdueDays, env), key, monthLabel)
    requires ParseDateSafe(e.date, env.parse).None?
    ensures forall i, c :: 0 <= i < |groups| && c in groups[i].items ==> c.event != e
  {
    DroppedEventInNoGroup(groups, events, overdueDays, env, key, monthLabel, e);
  }

  /** An overdue one-off event is in no group. */
  lemma OverdueOneOffInNoGroup(groups: seq<MonthGroup>, events: seq<Event>, overdueDays: int, env: Ambient,
                               key: KeyFn, monthLabel: MonthLabel, e: Event, d: Date)
    requires IsMonthGrouping(groups, Retained(events, overdueDays, env), key, monthLabel)
    requires ParseDateSafe(e.date, env.parse) == Some(d)
    requires IsOverdue(d, overdueDays, env.now) && !e.isYearly
    ensures forall i, c :: 0 <= i < |groups| && c in groups[i].items ==> c.event != e
  {
    assert Calendarize(e, overdueDays, env).None?;
    DroppedEventInNoGroup(groups, events, overdueDays, env, key, monthLabel, e);
  }

  lemma CalendarizeKeepsDate(e: Event, overdueDays: int, env: Ambient, d: Date)
    requires ParseDateSafe(e.date, env.parse) == Some(d) && !IsOverdue(d, overdueDays, env.now)
    ensures Calendarize(e, overdueDays, env) == Some(CalEvent(e, GetYear(d), GetMonth(d), GetDay(d)))
  {
  }

  lemma CalendarizeMovesYearly(e: Event, overdueDays: int, env: Ambient, d: Date)
    requires ParseDateSafe(e.date, env.parse) == Some(d) && IsOverdue(d, overdueDays, env.now) && e.isYearly
    ensures var year := if IsOverdue(SetFullYear(d, env.currentYear), overdueDays, env.now)
                        then env.currentYear + 1 else env.currentYear;
            Calendarize(e, overdueDays, env) == Some(CalEvent(e, year, GetMonth(d), GetDay(d)))
  {
  }

  /**
   * An event that is not overdue is shown under its own date, in the group of
   * that month, only as that entry, and as many times as `events` lists it.
   */
  lemma NotOverdueEventKeepsItsDate(groups: seq<MonthGroup>, events: seq<Event>, overdueDays: int, env: Ambient,
                                    key: KeyFn, monthLabel: MonthLabel, e: Event, d: Date)
    requires IsMonthGrouping(groups, Retained(events, overdueDays, env), key, monthLabel)
    requires e in events && ParseDateSafe(e.date, env.parse) == Some(d)
    requires !IsOverdue(d, overdueDays, env.now)
    ensures var c := CalEvent(e, GetYear(d), GetMonth(d), GetDay(d));
            && (exists i :: 0 <= i < |groups| && c in groups[i].items
                   && groups[i].year == GetYear(d) && groups[i].month == GetMonth(d))
            && (forall i, c' :: 0 <= i < |groups| && c' in groups[i].items && c'.event == e ==> c' == c)
            && multiset(AllItems(groups))[c] == multiset(events)[e]
  {
    var c := CalEvent(e, GetYear(d), GetMonth(d), GetDay(d));
    CalendarizeKeepsDate(e, overdueDays, env, d);
    EventPlacement(groups, events, overdueDays, env, key, monthLabel, e, c);
    EventShownAsOftenAsListed(groups, events, overdueDays, env, key, monthLabel, e, c);
  }

  /**
   * An overdue yearly event is shown on its month and day in the current year,
   * or in the next year when the current year's date is overdue as well; only
   * as that entry, and as many times as `events` lists it.
   */
  lemma OverdueYearlyEventMoves(groups: seq<MonthGroup>, events: seq<Event>, overdueDays: int, env: Ambient,
                                key: KeyFn, monthLabel: MonthLabel, e: Event, d: Date)
    requires IsMonthGrouping(groups, Retained(events, overdueDays, env), key, monthLabel)
    requires e in events && ParseDateSafe(e.date, env.parse) == Some(d)
    requires IsOverdue(d, overdueDays, env.now) && e.isYearly
    ensures var year := if IsOverdue(SetFullYear(d, env.currentYear), overdueDays, env.now)
                        then env.currentYear + 1 else env.currentYear;
            var c := CalEvent(e, year, GetMonth(d), GetDay(d));
            && (exists i :: 0 <= i < |groups| && c in groups[i].items
                   && groups[i].year == year && groups[i].month == GetMonth(d))
            && (forall i, c' :: 0 <= i < |groups| && c' in groups[i].items && c'.event == e ==> c' == c)
            && multiset(AllItems(groups))[c] == multiset(events)[e]
  {
    var year := if IsOverdue(SetFullYear(d, env.currentYear), overdueDays, env.now)
                then env.currentYear + 1 else env.currentYear;
    var c := CalEvent(e, year, GetMonth(d), GetDay(d));
    CalendarizeMovesYearly(e, overdueDays, env, d);
    EventPlacement(groups, events, overdueDays, env, key, monthLabel, e, c);
    EventShownAsOftenAsListed(groups, events, overdueDays, env, key, monthLabel, e, c);
  }

  /**
   * When the clock's current year is the year `now` falls in and `overdueDays`
   * is not negative, the moved date of an overdue yearly event is never itself
   * overdue.
   */
  lemma MovedYearlyDateNotOverdue(d: Date, overdueDays: int, env: Ambient)
    requires overdueDays >= 0
    requires DaysBeforeYear(env.currentYear) * MS_PER_DAY <= env.now < DaysBeforeYear(env.currentYear + 1) * MS_PER_DAY
    requires IsOverdue(d, overdueDays, env.now)
    ensures var year := TargetYear(d, true, overdueDays, env).value;
            !IsOverdue(SetFullYear(d, year), overdueDays, env.now)
  {
    if IsOverdue(SetFullYear(d, env.currentYear), overdueDays, env.now) {
      assert TargetYear(d, true, overdueDays, env) == Some(env.currentYear + 1);
      FutureYearNotOverdue(d, env.currentYear + 1, overdueDays, env.now);
    } else {
      assert TargetYear(d, true, overdueDays, env) == Some(env.currentYear);
    }
  }

  /** A date moved into a year that has not begun is not overdue by any non-negative number of days. */
  lemma FutureYearNotOverdue(d: Date, year: int, overdueDays: int, now: int)
    requires overdueDays >= 0 && now < DaysBeforeYear(year) * MS_PER_DAY
    ensures !IsOverdue(SetFullYear(d, year), overdueDays, now)
  {
    var moved := SetFullYear(d, year);
    DayWithinYear(year, moved.month0, moved.date);
  }

  /**
   * A yearly 29 February shown in another year stays on 29 February, even
   * though the overdue test for a non-leap current year is made on 1 March.
   */
  lemma YearlyLeapDayKeepsItsDay(e: Event, overdueDays: int, env: Ambient, d: Date)
    requires ParseDateSafe(e.date, env.parse) == Some(d) && e.isYearly
    requires d.month0 == 1 && d.date == 29
    requires IsOverdue(d, overdueDays, env.now)
    ensures Calendarize(e, overdueDays, env).Some?
    ensures Calendarize(e, overdueDays, env).value.month == 2 && Calendarize(e, overdueDays, env).value.day == 29
    ensures !IsLeapYear(env.currentYear) ==>
              SetFullYear(d, env.currentYear).month0 == 2 && SetFullYear(d, env.currentYear).date == 1
  {
    GettersLocateInstant(d);
  }
}

=== FILE: js_date.dfy ===
/**
 * The JavaScript `Date` object, in UTC: a proleptic Gregorian civil date with a
 * time of day, and its time value (milliseconds since 1970-01-01T00:00:00Z)
 * computed as ECMA-262 computes it (MakeDay, MakeDate).
 */
module JsDate {
  import opened Text

  const MS_PER_DAY := 86400000

  predicate IsLeapYear(y: int) {
    y % 4 == 0 && (y % 100 != 0 || y % 400 == 0)
  }

  /** Days in month `m0` (zero-based, as `Date.prototype.getMonth` counts) of year `y`. */
  function DaysInMonth(y: int, m0: int): (n: int)
    requires 0 <= m0 < 12
    ensures 28 <= n <= 31
  {
    if m0 == 1 then (if IsLeapYear(y) then 29 else 28)
    else if m0 == 3 || m0 == 5 || m0 == 8 || m0 == 10 then 30
    else 31
  }

  /** Days of year `y` before the first of month `m0`. */
  function DaysBeforeMonth(y: int, m0: int): int
    requires 0 <= m0 < 12
  {
    var common := [0, 31, 59, 90, 120, 151, 181, 212, 243, 273, 304, 334][m0];
    if m0 >= 2 && IsLeapYear(y) then common + 1 else common
  }

  /** Leap years strictly before year `y` (counted from year 1; floor division). */
  function LeapYearsBefore(y: int): int {
    (y - 1) / 4 - (y - 1) / 100 + (y - 1) / 400
  }

  /** Day number of `y`-01-01, day 0 being 1970-01-01. */
  function DaysBeforeYear(y: int): int {
    365 * (y - 1970) + LeapYearsBefore(y) - LeapYearsBefore(1970)
  }

  /**
   * ECMA-262 MakeDay: the day number of date `dt` of month `m0` in year `y`.
   * A `dt` past the end of the month counts on into the next month.
   */
  function MakeDay(y: int, m0: int, dt: int): int
    requires 0 <= m0 < 12
  {
    DaysBeforeYear(y) + DaysBeforeMonth(y, m0) + dt - 1
  }

  datatype DateValue = DateValue(year: int, month0: int, date: int, msOfDay: int) {
    predicate Valid() {
      && 0 <= month0 < 12
      && 1 <= date <= DaysInMonth(year, month0)
      && 0 <= msOfDay < MS_PER_DAY
    }
  }

  /** A valid (non-NaN) `Date`, held by its UTC fields. */
  type Date = d: DateValue | d.Valid() witness DateValue(1970, 0, 1, 0)

  /** `Date.prototype.getTime`. */
  function Time(d: Date): int {
    MakeDay(d.year, d.month0, d.date) * MS_PER_DAY + d.msOfDay
  }

  /** The day number of the calendar day `d` falls on. */
  function DayNumber(d: Date): int {
    MakeDay(d.year, d.month0, d.date)
  }

  /** Day 0 is 1970-01-01, and 2000-01-01 is day 10957, as in ECMA-262. */
  lemma EpochDays()
    ensures MakeDay(1970, 0, 1) == 0
    ensures MakeDay(2000, 0, 1) == 10957
  {
  }

  lemma TimeDivDay(d: Date)
    ensures Time(d) / MS_PER_DAY == DayNumber(d)
    ensures Time(d) % MS_PER_DAY == d.msOfDay
  {
  }

  lemma DivStep(a: int, k: int)
    requires k == 4 || k == 100 || k == 400
    ensures a / k - (a - 1) / k == if a % k == 0 then 1 else 0
  {
  }

  /** Consecutive years are a year length apart. */
  lemma YearLength(y: int)
    ensures DaysBeforeYear(y + 1) - DaysBeforeYear(y) == if IsLeapYear(y) then 366 else 365
  {
    DivStep(y, 4);
    DivStep(y, 100);
    DivStep(y, 400);
  }

  lemma {:induction false} DaysBeforeYearMonotone(y1: int, y2: int)
    requires y1 <= y2
    ensures DaysBeforeYear(y1) + 365 * (y2 - y1) <= DaysBeforeYear(y2)
    decreases y2 - y1
  {
    if y1 < y2 {
      DaysBeforeYearMonotone(y1, y2 - 1);
      YearLength(y2 - 1);
    }
  }

  /** A valid day of year `y` has a day number inside that year. */
  lemma DayWithinYear(y: int, m0: int, dt: int)
    requires 0 <= m0 < 12 && 1 <= dt <= DaysInMonth(y, m0)
    ensures DaysBeforeYear(y) <= MakeDay(y, m0, dt) < DaysBeforeYear(y + 1)
  {
    YearLength(y);
  }

  /** Within one year, a later (month, date) has a larger day number. */
  lemma DayOrderWithinYear(y: int, m1: int, d1: int, m2: int, d2: int)
    requires 0 <= m1 < 12 && 1 <= d1 <= DaysInMonth(y, m1)
    requires 0 <= m2 < 12 && 1 <= d2 <= DaysInMonth(y, m2)
    requires m1 < m2 || (m1 == m2 && d1 < d2)
    ensures MakeDay(y, m1, d1) < MakeDay(y, m2, d2)
  {
  }

  /** Valid civil dates in lexicographic order have increasing day numbers. */
  lemma DayNumberOrder(a: Date, b: Date)
    requires a.year < b.year
          || (a.year == b.year && (a.month0 < b.month0 || (a.month0 == b.month0 && a.date < b.date)))
    ensures DayNumber(a) < DayNumber(b)
  {
    if a.year < b.year {
      DayWithinYear(a.year, a.month0, a.date);
      DayWithinYear(b.year, b.month0, b.date);
      DaysBeforeYearMonotone(a.year + 1, b.year);
    } else {
      DayOrderWithinYear(a.year, a.month0, a.date, b.month0, b.date);
    }
  }

  /** Two valid dates fall on the same day number exactly when their civil fields agree. */
  lemma DayNumberInjective(a: Date, b: Date)
    ensures DayNumber(a) == DayNumber(b) <==> (a.year == b.year && a.month0 == b.month0 && a.date == b.date)
  {
    if a.year < b.year || (a.year == b.year && (a.month0 < b.month0 || (a.month0 == b.month0 && a.date < b.date))) {
      DayNumberOrder(a, b);
    } else if b.year < a.year || (a.year == b.year && (b.month0 < a.month0 || (a.month0 == b.month0 && b.date < a.date))) {
      DayNumberOrder(b, a);
    }
  }

  /**
   * `date.setFullYear(y)`: same month, date and time of day in year `y`. Only
   * February 29 can be missing from the target year; it then becomes March 1.
   */
  function SetFullYear(d: Date, y: int): (r: Date)
    ensures Time(r) == MakeDay(y, d.month0, d.date) * MS_PER_DAY + d.msOfDay
    ensures r.year == y && r.msOfDay == d.msOfDay
    ensures d.date <= DaysInMonth(y, d.month0) ==> r.month0 == d.month0 && r.date == d.date
    ensures d.date > DaysInMonth(y, d.month0)
            ==> d.month0 == 1 && d.date == 29 && !IsLeapYear(y) && r.month0 == 2 && r.date == 1
  {
    if d.date <= DaysInMonth(y, d.month0) then DateValue(y, d.month0, d.date, d.msOfDay)
    else DateValue(y, d.month0 + 1, d.date - DaysInMonth(y, d.month0), d.msOfDay)
  }

  /** `r` holds `width` decimal digits from position `at`, reading `v`. */
  predicate FieldAt(r: string, at: nat, width: nat, v: int) {
    at + width <= |r| && AllDigits(r[at..at + width]) && DigitsValue(r[at..at + width]) == v
  }

  /** Year field of `toISOString`: four digits, or a signed six-digit extended year. */
  function IsoYear(y: int): (r: string)
    ensures 0 <= y <= 9999 ==> |r| == 4 && AllDigits(r) && DigitsValue(r) == y
  {
    if 0 <= y <= 9999 then
      assert Pow10(4) == 10000;
      NatToStringLength(y, 4);
      NatToStringRoundTrip(y);
      ZeroPadValue(NatToString(y), 4);
      PadStart(NatToString(y), 4, '0')
    else (if y < 0 then "-" else "+") + PadStart(NatToString(if y < 0 then -y else y), 6, '0')
  }

  /** Three-digit zero-padded milliseconds. */
  function Pad3(n: nat): (r: string)
    requires n < 1000
    ensures |r| == 3 && AllDigits(r) && DigitsValue(r) == n
  {
    assert Pow10(3) == 1000;
    NatToStringLength(n, 3);
    NatToStringRoundTrip(n);
    ZeroPadValue(NatToString(n), 3);
    PadStart(NatToString(n), 3, '0')
  }

  /** Year, month and day text joined by dashes. */
  function DashJoin(year: string, month: string, day: string): string {
    year + "-" + month + "-" + day
  }

  /** Where the three fields sit in `year-month-day` text with a four-character year. */
  lemma FieldsOfJoin<T>(y: seq<T>, dash: seq<T>, m: seq<T>, dd: seq<T>)
    requires |y| == 4 && |dash| == 1 && |m| == 2 && |dd| == 2
    ensures var r := y + dash + m + dash + dd;
            |r| == 10 && r[..4] == y && r[4] == dash[0] && r[5..7] == m && r[7] == dash[0] && r[8..10] == dd
  {
    var r := y + dash + m + dash + dd;
    assert r[..4] == y;
    assert r[5..7] == m;
    assert r[8..10] == dd;
  }

  /** The `YYYY-MM-DD` part of `toISOString`: for years 0..9999, the year, month and day in digits. */
  function IsoDatePart(d: Date): (r: string)
    ensures 0 <= d.year <= 9999 ==>
              && |r| == 10 && r[4] == '-' && r[7] == '-'
              && FieldAt(r, 0, 4, d.year) && FieldAt(r, 5, 2, d.month0 + 1) && FieldAt(r, 8, 2, d.date)
  {
    var r := DashJoin(IsoYear(d.year), Pad2(d.month0 + 1), Pad2(d.date));
    if 0 <= d.year <= 9999 then
      DashJoinFields(r, IsoYear(d.year), Pad2(d.month0 + 1), Pad2(d.date), d.year, d.month0 + 1, d.date);
      r
    else r
  }

  /** Four, two and two digits joined by dashes hold their values at positions 0, 5 and 8. */
  lemma DashJoinFields(r: string, y: string, m: string, dd: string, year: int, month: int, day: int)
    requires r == DashJoin(y, m, dd)
    requires |y| == 4 && AllDigits(y) && DigitsValue(y) == year
    requires |m| == 2 && AllDigits(m) && DigitsValue(m) == month
    requires |dd| == 2 && AllDigits(dd) && DigitsValue(dd) == day
    ensures |r| == 10 && r[4] == '-' && r[7] == '-'
    ensures FieldAt(r, 0, 4, year) && FieldAt(r, 5, 2, month) && FieldAt(r, 8, 2, day)
  {
    FieldsOfJoin(y, "-", m, dd);
  }

  /** Where the four fields sit in `THH:mm:ss.sssZ` text. */
  lemma FieldsOfTime(r: string, h: string, mi: string, s: string, ms: string)
    requires |h| == 2 && |mi| == 2 && |s| == 2 && |ms| == 3
    requires r == "T" + h + ":" + mi + ":" + s + "." + ms + "Z"
    ensures |r| == 14 && r[0] == 'T' && r[3] == ':' && r[6] == ':' && r[9] == '.' && r[13] == 'Z'
    ensures r[1..3] == h && r[4..6] == mi && r[7..9] == s && r[10..13] == ms
  {
    assert r[1..3] == h;
    assert r[4..6] == mi;
    assert r[7..9] == s;
    assert r[10..13] == ms;
  }

  /** The `THH:mm:ss.sssZ` part of `toISOString`: hours, minutes, seconds and milliseconds of the day. */
  function IsoTimePart(d: Date): (r: string)
    ensures |r| == 14 && r[0] == 'T' && r[3] == ':' && r[6] == ':' && r[9] == '.' && r[13] == 'Z'
    ensures FieldAt(r, 1, 2, d.msOfDay / 3600000) && FieldAt(r, 4, 2, d.msOfDay / 60000 % 60)
    ensures FieldAt(r, 7, 2, d.msOfDay / 1000 % 60) && FieldAt(r, 10, 3, d.msOfDay % 1000)
  {
    var h := Pad2(d.msOfDay / 3600000);
    var mi := Pad2(d.msOfDay / 60000 % 60);
    var s := Pad2(d.msOfDay / 1000 % 60);
    var ms := Pad3(d.msOfDay % 1000);
    var r := "T" + h + ":" + mi + ":" + s + "." + ms + "Z";
    FieldsOfTime(r, h, mi, s, ms);
    r
  }

  /** A field of `b` is found in `a + b` shifted by `|a|`. */
  lemma FieldAfter(a: string, b: string, at: nat, width: nat, v: int)
    requires FieldAt(b, at, width, v)
    ensures FieldAt(a + b, |a| + at, width, v)
  {
    assert (a + b)[|a| + at..|a| + at + width] == b[at..at + width];
  }

  /** A field of `a` is found at the same place in `a + b`. */
  lemma FieldBefore(a: string, b: string, at: nat, width: nat, v: int)
    requires FieldAt(a, at, width, v)
    ensures FieldAt(a + b, at, width, v)
  {
    assert (a + b)[at..at + width] == a[at..at + width];
  }

  /**
   * `r` spells `YYYY-MM-DDTHH:mm:ss.sssZ` with these year, month (1..12), day,
   * hours, minutes, seconds and milliseconds.
   */
  predicate SpellsIso(r: string, year: int, month: int, day: int, hours: int, minutes: int, seconds: int, millis: int) {
    && |r| == 24
    && r[4] == '-' && r[7] == '-' && r[10] == 'T' && r[13] == ':' && r[16] == ':' && r[19] == '.' && r[23] == 'Z'
    && FieldAt(r, 0, 4, year) && FieldAt(r, 5, 2, month) && FieldAt(r, 8, 2, day)
    && FieldAt(r, 11, 2, hours) && FieldAt(r, 14, 2, minutes) && FieldAt(r, 17, 2, seconds) && FieldAt(r, 20, 3, millis)
  }

  /**
   * `Date.prototype.toISOString`: for years 0..9999, the UTC year, month, day,
   * hours, minutes, seconds and milliseconds of the instant in
   * `YYYY-MM-DDTHH:mm:ss.sssZ`.
   */
  function ToIsoString(d: Date): (r: string)
    ensures 0 <= d.year <= 9999 ==>
              SpellsIso(r, d.year, d.month0 + 1, d.date,
                        d.msOfDay / 3600000, d.msOfDay / 60000 % 60, d.msOfDay / 1000 % 60, d.msOfDay % 1000)
    ensures |r| >= 1 && r[|r| - 1] == 'Z'
  {
    IsoStringEndsInZ(d);
    IsoStringFields(d);
    IsoDatePart(d) + IsoTimePart(d)
  }

  /** The ISO text ends with the time part's `Z`. */
  lemma IsoStringEndsInZ(d: Date)
    ensures var r := IsoDatePart(d) + IsoTimePart(d); |r| >= 1 && r[|r| - 1] == 'Z'
  {
    var date := IsoDatePart(d);
    var time := IsoTimePart(d);
    assert (date + time)[|date + time| - 1] == time[13];
  }

  /** For years 0..9999 the fields of both parts sit where the ISO layout puts them. */
  lemma IsoStringFields(d: Date)
    ensures 0 <= d.year <= 9999 ==>
              SpellsIso(IsoDatePart(d) + IsoTimePart(d), d.year, d.month0 + 1, d.date,
                        d.msOfDay / 3600000, d.msOfDay / 60000 % 60, d.msOfDay / 1000 % 60, d.msOfDay % 1000)
  {
    if 0 <= d.year <= 9999 {
      IsoFields(IsoDatePart(d), IsoTimePart(d), d.year, d.month0 + 1, d.date,
                d.msOfDay / 3600000, d.msOfDay / 60000 % 60, d.msOfDay / 1000 % 60, d.msOfDay % 1000);
    }
  }

  /** A date part and a time part with these fields join into ISO text with them. */
  lemma IsoFields(date: string, time: string, year: int, month: int, day: int,
                  hours: int, minutes: int, seconds: int, millis: int)
    requires |date| == 10 && date[4] == '-' && date[7] == '-'
    requires FieldAt(date, 0, 4, year) && FieldAt(date, 5, 2, month) && FieldAt(date, 8, 2, day)
    requires |time| == 14 && time[0] == 'T' && time[3] == ':' && time[6] == ':' && time[9] == '.' && time[13] == 'Z'
    requires FieldAt(time, 1, 2, hours) && FieldAt(time, 4, 2, minutes)
    requires FieldAt(time, 7, 2, seconds) && FieldAt(time, 10, 3, millis)
    ensures SpellsIso(date + time, year, month, day, hours, minutes, seconds, millis)
  {
    FieldBefore(date, time, 0, 4, year);
    FieldBefore(date, time, 5, 2, month);
    FieldBefore(date, time, 8, 2, day);
    FieldAfter(date, time, 1, 2, hours);
    FieldAfter(date, time, 4, 2, minutes);
    FieldAfter(date, time, 7, 2, seconds);
    FieldAfter(date, time, 10, 3, millis);
  }

  /** The milliseconds of a day are recovered from its hours, minutes, seconds and milliseconds fields. */
  lemma MsOfDayFromFields(t: nat)
    ensures t == t / 3600000 * 3600000 + t / 60000 % 60 * 60000 + t / 1000 % 60 * 1000 + t % 1000
  {
    var sec := t / 1000;
    var min := sec / 60;
    assert t == sec * 1000 + t % 1000;
    assert sec == min * 60 + sec % 60;
    assert min == min / 60 * 60 + min % 60;
    assert t / 60000 == min;
    assert t / 3600000 == min / 60;
  }

  /** ISO text determines the seven fields it spells. */
  lemma SpellsIsoUnique(r: string, y: int, mo: int, dd: int, h: int, mi: int, s: int, ms: int,
                        y': int, mo': int, dd': int, h': int, mi': int, s': int, ms': int)
    requires SpellsIso(r, y, mo, dd, h, mi, s, ms) && SpellsIso(r, y', mo', dd', h', mi', s', ms')
    ensures y == y' && mo == mo' && dd == dd' && h == h' && mi == mi' && s == s' && ms == ms'
  {
  }

  /** Two times of day with the same hours, minutes, seconds and milliseconds are equal. */
  lemma ClockFieldsDetermineTime(t: nat, u: nat)
    requires t / 3600000 == u / 3600000 && t / 60000 % 60 == u / 60000 % 60
    requires t / 1000 % 60 == u / 1000 % 60 && t % 1000 == u % 1000
    ensures t == u
  {
    MsOfDayFromFields(t);
    MsOfDayFromFields(u);
  }

  /** For years 0..9999, distinct dates have distinct ISO strings. */
  lemma ToIsoStringInjective(a: Date, b: Date)
    requires 0 <= a.year <= 9999 && 0 <= b.year <= 9999
    requires ToIsoString(a) == ToIsoString(b)
    ensures a == b
  {
    var ta, tb := a.msOfDay, b.msOfDay;
    var r := ToIsoString(a);
    assert SpellsIso(r, a.year, a.month0 + 1, a.date, ta / 3600000, ta / 60000 % 60, ta / 1000 % 60, ta % 1000);
    assert SpellsIso(r, b.year, b.month0 + 1, b.date, tb / 3600000, tb / 60000 % 60, tb / 1000 % 60, tb % 1000);
    SpellsIsoUnique(r, a.year, a.month0 + 1, a.date, ta / 3600000, ta / 60000 % 60, ta / 1000 % 60, ta % 1000,
                    b.year, b.month0 + 1, b.date, tb / 3600000, tb / 60000 % 60, tb / 1000 % 60, tb % 1000);
    ClockFieldsDetermineTime(ta, tb);
  }
}

=== FILE: stable_sort.dfy ===
/**
 * A stable sort by an integer rank, the behaviour ECMAScript 2019 and later
 * require of `Array.prototype.sort` when the comparator is `(a, b) => rank(a) - rank(b)`:
 * the result is ordered by rank, is a permutation of the input, and keeps
 * elements of equal rank in their input order.
 */
module StableSort {

  ghost predicate SortedBy<T>(s: seq<T>, rank: T -> int) {
    forall i, j :: 0 <= i < j < |s| ==> rank(s[i]) <= rank(s[j])
  }

  ghost predicate StrictlySortedBy<T>(s: seq<T>, rank: T -> int) {
    forall i, j :: 0 <= i < j < |s| ==> rank(s[i]) < rank(s[j])
  }

  ghost predicate DistinctRanks<T>(s: seq<T>, rank: T -> int) {
    forall i, j :: 0 <= i < j < |s| ==> rank(s[i]) != rank(s[j])
  }

  /** The elements of `s` whose rank is `v`, in their order in `s`. */
  function WithRank<T>(s: seq<T>, rank: T -> int, v: int): seq<T> {
    if s == [] then []
    else (if rank(s[0]) == v then [s[0]] else []) + WithRank(s[1..], rank, v)
  }

  /** Puts `x` in front of the first element whose rank is not below its own. */
  function Insert<T>(x: T, s: seq<T>, rank: T -> int): (r: seq<T>)
    ensures |r| == |s| + 1
  {
    if s == [] || rank(x) <= rank(s[0]) then [x] + s
    else [s[0]] + Insert(x, s[1..], rank)
  }

  /** Inserting adds `x` and loses nothing. */
  lemma {:induction false} InsertPermutes<T>(x: T, s: seq<T>, rank: T -> int)
    ensures multiset(Insert(x, s, rank)) == multiset(s) + multiset{x}
    decreases |s|
  {
    if s != [] && rank(x) > rank(s[0]) {
      InsertPermutes(x, s[1..], rank);
      assert s == [s[0]] + s[1..];
    }
  }

  /** Inserting into a sorted sequence keeps it sorted; the result starts with `x` or with the old first element. */
  lemma {:induction false} InsertSorted<T>(x: T, s: seq<T>, rank: T -> int)
    requires SortedBy(s, rank)
    ensures SortedBy(Insert(x, s, rank), rank)
    ensures Insert(x, s, rank)[0] == if s == [] || rank(x) <= rank(s[0]) then x else s[0]
    decreases |s|
  {
    if s != [] && rank(x) > rank(s[0]) {
      var t := Insert(x, s[1..], rank);
      InsertSorted(x, s[1..], rank);
      assert rank(s[0]) <= rank(t[0]);
      var r := [s[0]] + t;
      assert forall k :: 1 <= k < |r| ==> r[k] == t[k - 1];
    }
  }

  /** Insertion sort; sorting the tail first and inserting the head keeps ties in input order. */
  function SortBy<T>(s: seq<T>, rank: T -> int): (r: seq<T>)
    ensures SortedBy(r, rank)
    ensures multiset(r) == multiset(s)
    ensures |r| == |s|
  {
    if s == [] then []
    else
      assert s == [s[0]] + s[1..];
      InsertSorted(s[0], SortBy(s[1..], rank), rank);
      InsertPermutes(s[0], SortBy(s[1..], rank), rank);
      Insert(s[0], SortBy(s[1..], rank), rank)
  }

  lemma WithRankCons<T>(y: T, t: seq<T>, rank: T -> int, v: int)
    ensures WithRank([y] + t, rank, v) == (if rank(y) == v then [y] else []) + WithRank(t, rank, v)
  {
    assert ([y] + t)[0] == y && ([y] + t)[1..] == t;
  }

  /** Inserting `x` adds it to the elements of its rank, in front of them, and changes no other rank's elements. */
  lemma {:induction false} InsertWithRank<T>(x: T, s: seq<T>, rank: T -> int, v: int)
    ensures WithRank(Insert(x, s, rank), rank, v)
         == (if rank(x) == v then [x] else []) + WithRank(s, rank, v)
    decreases |s|
  {
    if s == [] || rank(x) <= rank(s[0]) {
      WithRankCons(x, s, rank, v);
    } else {
      var t := Insert(x, s[1..], rank);
      assert Insert(x, s, rank) == [s[0]] + t;
      var w := WithRank(s[1..], rank, v);
      InsertWithRank(x, s[1..], rank, v);
      WithRankCons(s[0], t, rank, v);
      assert s == [s[0]] + s[1..];
      WithRankCons(s[0], s[1..], rank, v);
      if rank(x) == v {
        assert WithRank(s, rank, v) == [] + w == w;
        assert WithRank([s[0]] + t, rank, v) == [] + WithRank(t, rank, v);
      } else {
        assert WithRank(t, rank, v) == [] + w == w;
      }
    }
  }

  /** Stability: for every rank, the elements of that rank keep their relative order. */
  lemma {:induction false} SortByIsStable<T>(s: seq<T>, rank: T -> int, v: int)
    ensures WithRank(SortBy(s, rank), rank, v) == WithRank(s, rank, v)
    decreases |s|
  {
    if s != [] {
      SortByIsStable(s[1..], rank, v);
      InsertWithRank(s[0], SortBy(s[1..], rank), rank, v);
    }
  }

  /** When no two elements share a rank, the sorted result is strictly increasing. */
  lemma SortByStrict<T>(s: seq<T>, rank: T -> int)
    requires DistinctRanks(s, rank)
    ensures StrictlySortedBy(SortBy(s, rank), rank)
  {
    var r := SortBy(s, rank);
    forall i, j | 0 <= i < j < |r| ensures rank(r[i]) < rank(r[j]) {
      if rank(r[i]) == rank(r[j]) {
        SortByIsStable(s, rank, rank(r[i]));
        WithRankCount(r, rank, rank(r[i]), i, j);
        WithRankAtMostOne(s, rank, rank(r[i]));
        assert false;
      }
    }
  }

  lemma {:induction false} WithRankCount<T>(s: seq<T>, rank: T -> int, v: int, i: nat, j: nat)
    requires i < j < |s| && rank(s[i]) == v && rank(s[j]) == v
    ensures |WithRank(s, rank, v)| >= 2
    decreases |s|
  {
    if i > 0 {
      WithRankCount(s[1..], rank, v, i - 1, j - 1);
    } else {
      WithRankHas(s[1..], rank, v, j - 1);
    }
  }

  lemma {:induction false} WithRankHas<T>(s: seq<T>, rank: T -> int, v: int, j: nat)
    requires j < |s| && rank(s[j]) == v
    ensures |WithRank(s, rank, v)| >= 1
    decreases |s|
  {
    if j > 0 {
      WithRankHas(s[1..], rank, v, j - 1);
    }
  }

  lemma {:induction false} WithRankAtMostOne<T>(s: seq<T>, rank: T -> int, v: int)
    requires DistinctRanks(s, rank)
    ensures |WithRank(s, rank, v)| <= 1
    decreases |s|
  {
    if s != [] {
      WithRankAtMostOne(s[1..], rank, v);
      if rank(s[0]) == v && |WithRank(s[1..], rank, v)| == 1 {
        var j := WithRankWitness(s[1..], rank, v);
        assert false;
      }
    }
  }

  lemma {:induction false} WithRankWitness<T>(s: seq<T>, rank: T -> int, v: int) returns (j: nat)
    requires |WithRank(s, rank, v)| >= 1
    ensures j < |s| && rank(s[j]) == v
    decreases |s|
  {
    if rank(s[0]) == v {
      j := 0;
    } else {
      j := WithRankWitness(s[1..], rank, v);
      j := j + 1;
    }
  }
}

=== FILE: string_utils.dfy ===
/** `capitalizeFirst` (`frontend/src/utils/string.ts`). */
module StringUtils {

  /** `c.toLocaleUpperCase('ru-RU')`: locale data, so a parameter; it may map one character to several. */
  type UpperCase = char -> string

  /** An empty string stays empty; otherwise the first character is upper-cased and the rest kept. */
  function CapitalizeFirst(s: string, upper: UpperCase): (r: string)
    ensures s == [] ==> r == []
    ensures s != [] ==> |r| == |upper(s[0])| + |s| - 1
    ensures s != [] ==> r[..|upper(s[0])|] == upper(s[0]) && r[|upper(s[0])|..] == s[1..]
  {
    if s == [] then s else upper(s[0]) + s[1..]
  }

  /** Only the first character is touched: strings that agree after it agree after it once capitalized. */
  lemma CapitalizeFirstTouchesOnlyHead(s: string, t: string, upper: UpperCase)
    requires s != [] && t != [] && s[0] == t[0]
    ensures CapitalizeFirst(s, upper) == CapitalizeFirst(t, upper) <==> s[1..] == t[1..]
  {
    var u := upper(s[0]);
    var rs := CapitalizeFirst(s, upper);
    var rt := CapitalizeFirst(t, upper);
    if rs == rt {
      assert s[1..] == rs[|u|..] == rt[|u|..] == t[1..];
    }
  }

  /** Where upper-casing maps a character to a single character that it keeps, capitalizing twice is capitalizing once. */
  lemma CapitalizeFirstIdempotent(s: string, upper: UpperCase)
    requires s != [] ==> |upper(s[0])| == 1 && upper(upper(s[0])[0]) == upper(s[0])
    ensures CapitalizeFirst(CapitalizeFirst(s, upper), upper) == CapitalizeFirst(s, upper)
  {
    if s != [] {
      var r := CapitalizeFirst(s, upper);
      assert r[0] == upper(s[0])[0];
      assert r[1..] == s[1..];
    }
  }
}

=== FILE: text.dfy ===
/**
 * Decimal rendering of integers and left padding, as JavaScript's
 * `String(n)` (for integral numbers) and `String.prototype.padStart` do.
 */
module Text {

  predicate IsDigit(c: char) {
    '0' <= c <= '9'
  }

  /** Every character is an ASCII decimal digit (JavaScript's `\d`). */
  predicate AllDigits(s: string) {
    forall k :: 0 <= k < |s| ==> IsDigit(s[k])
  }

  function DigitChar(d: nat): (c: char)
    requires d < 10
    ensures IsDigit(c) && c as int - '0' as int == d
  {
    (d + '0' as int) as char
  }

  function Pow10(k: nat): (p: nat)
    ensures p >= 1
  {
    if k == 0 then 1 else 10 * Pow10(k - 1)
  }

  /** Decimal digits of a natural number, most significant first, no leading zeros. */
  function NatToString(n: nat): (s: string)
    ensures 1 <= |s|
    ensures forall i :: 0 <= i < |s| ==> IsDigit(s[i])
    ensures |s| == 1 <==> n < 10
    decreases n
  {
    if n < 10 then [DigitChar(n)] else NatToString(n / 10) + [DigitChar(n % 10)]
  }

  /** JavaScript's `String(n)` for an integral number. */
  function IntToString(n: int): (s: string)
    ensures 1 <= |s|
    ensures n < 0 <==> s[0] == '-'
  {
    if n < 0 then "-" + NatToString(-n) else NatToString(n)
  }

  /** The value of a string of decimal digits (0 for the empty string). */
  function DigitsValue(s: string): nat
    requires forall i :: 0 <= i < |s| ==> IsDigit(s[i])
  {
    if s == [] then 0
    else
      assert IsDigit(s[|s| - 1]);
      10 * DigitsValue(s[..|s| - 1]) + (s[|s| - 1] as int - '0' as int)
  }

  /** Reading back the decimal rendering of `n` gives `n`. */
  lemma {:induction false} NatToStringRoundTrip(n: nat)
    ensures DigitsValue(NatToString(n)) == n
    decreases n
  {
    if n >= 10 {
      NatToStringRoundTrip(n / 10);
      var s := NatToString(n);
      assert s[..|s| - 1] == NatToString(n / 10);
    }
  }

  lemma NatToStringInjective(a: nat, b: nat)
    requires NatToString(a) == NatToString(b)
    ensures a == b
  {
    NatToStringRoundTrip(a);
    NatToStringRoundTrip(b);
  }

  /** `String(n)` determines `n`. */
  lemma IntToStringInjective(a: int, b: int)
    requires IntToString(a) == IntToString(b)
    ensures a == b
  {
    var s := IntToString(a);
    if a < 0 {
      assert b < 0;
      assert NatToString(-a) == s[1..] == NatToString(-b);
      NatToStringInjective(-a, -b);
    } else {
      assert b >= 0;
      NatToStringInjective(a, b);
    }
  }

  /** A number below 10^k has at most k digits. */
  lemma {:induction false} NatToStringLength(n: nat, k: nat)
    requires 1 <= k && n < Pow10(k)
    ensures |NatToString(n)| <= k
    decreases k
  {
    if n >= 10 {
      assert k >= 2;
      assert n / 10 < Pow10(k - 1);
      NatToStringLength(n / 10, k - 1);
    }
  }

  /** `s.padStart(width, fill)`: `s` prefixed by copies of `fill` up to `width` characters. */
  function PadStart(s: string, width: nat, fill: char): (r: string)
    ensures |r| == if |s| >= width then |s| else width
    ensures r[|r| - |s|..] == s
    ensures forall i :: 0 <= i < |r| - |s| ==> r[i] == fill
    decreases width - |s|
  {
    if |s| >= width then s else PadStart([fill] + s, width, fill)
  }

  /** A leading zero does not change the value of a digit string. */
  lemma {:induction false} LeadingZeroValue(s: string)
    requires forall i :: 0 <= i < |s| ==> IsDigit(s[i])
    ensures forall i :: 0 <= i < |['0'] + s| ==> IsDigit((['0'] + s)[i])
    ensures DigitsValue(['0'] + s) == DigitsValue(s)
    decreases |s|
  {
    if s != [] {
      var z := ['0'] + s;
      assert z[..|z| - 1] == ['0'] + s[..|s| - 1];
      assert z[|z| - 1] == s[|s| - 1];
      LeadingZeroValue(s[..|s| - 1]);
    } else {
      assert ['0'] + s == "0";
    }
  }

  /** Padding a digit string with zeros keeps it a digit string of the same value. */
  lemma {:induction false} ZeroPadValue(s: string, width: nat)
    requires forall i :: 0 <= i < |s| ==> IsDigit(s[i])
    ensures forall i :: 0 <= i < |PadStart(s, width, '0')| ==> IsDigit(PadStart(s, width, '0')[i])
    ensures DigitsValue(PadStart(s, width, '0')) == DigitsValue(s)
    decreases width - |s|
  {
    if |s| < width {
      LeadingZeroValue(s);
      ZeroPadValue(['0'] + s, width);
    }
  }

  /** Two-digit zero-padded rendering of a number in 0..99 (`String(n).padStart(2, '0')`). */
  function Pad2(n: nat): (r: string)
    requires n < 100
    ensures |r| == 2 && forall i :: 0 <= i < |r| ==> IsDigit(r[i])
    ensures DigitsValue(r) == n
  {
    NatToStringLength(n, 2);
    NatToStringRoundTrip(n);
    var s := NatToString(n);
    var r := PadStart(s, 2, '0');
    assert r == if n < 10 then "0" + s else s;
    assert r[..1] == [r[0]];
    r
  }

  lemma Pad2Injective(a: nat, b: nat)
    requires a < 100 && b < 100 && Pad2(a) == Pad2(b)
    ensures a == b
  {
  }
}

=== FILE: wrappers.dfy ===
/** Optional values: `None` stands for JavaScript's `null`/`undefined`. */
module Wrappers {

  datatype Option<+T> = None | Some(value: T) {

    /** The value, or `default` when absent (JavaScript's `??`). */
    function GetOr(default: T): T {
      match this
      case Some(v) => v
      case None => default
    }
  }
}
